=== FILE: README.md ===
# SerreConnect backend: sessions, bearer tokens and access control

This project models the security core of the SerreConnect backend. That backend serves greenhouses, their alerts, RFID badges and sensor history over HTTP, with MongoDB for storage. The model covers:

- **Login.** The caller's email and password are checked against the bcrypt digest stored with the user. A fresh server-side session is then stored, and a signed access token is returned. The token names the user, the session, the admin flag and the time of issue (`last_activity`). It expires after `ACCESS_TOKEN_EXPIRE_MINUTES`.
- **`get_current_user`.** Every protected request passes through this check:
  - the token must decode, and carry `sub`, `session_id` and `last_activity`;
  - the session must be active and belong to `sub`;
  - the inactivity timeout is checked, and an expired session is invalidated;
  - the user is looked up, and the session is touched.

  The admin flag of the resulting principal is read from the user record, never from the token.
- **Logout.** The caller's session is invalidated, which revokes every token that names it.
- **Access control.** The greenhouse and alert endpoints and the badge service enforce these rules:
  - an owner or an administrator may read or change a greenhouse;
  - an alert's access follows its parent greenhouse;
  - only a badge's owner may change or delete it, although an administrator may read it.

  The badge endpoints `create_badge` and `delete_badge` catch every exception, so they report the service's 404 and 403 refusals as a 500.
  The administrator listing `get_all_badges` calls the service's `get_all` with the wrong number of arguments, so it fails with a 500 on every call (see Findings).
- **Query-building repositories.** The generic Mongo repository covers `create`, `get_by_id`, `get_all` with skip/limit, `update` and `delete`. The history search builds a filter document.

The model is written as pure functions over immutable values:

- A collection is a map from document id to stored value.
- The order of a Mongo scan is a parameter that lists every key once.
- Time is an integer number of seconds.
- Passwords and tokens are symbolic. A digest remembers its salt and secret. A token is either signed, carrying its claims, or carries a bad signature, or is malformed.
- Each endpoint receives the principal that `get_current_user` produced.
- Each endpoint returns its result together with the new store.
- Python exceptions are modelled as `Result` values:
  - `HTTPException` becomes `HttpError(status, detail)`;
  - `ValueError`, a store error and `AttributeError` become `ServiceError` variants;
  - the controllers map each `ServiceError` to a 500 with `str(e)` as the detail.

Modules:

- `Wrappers`, `Common`, `Settings`, `Sequences`: shared definitions.
- `BaseRepository`: the generic repository.
- `Crypto`: symbolic bcrypt and JWT.
- `SessionRepository`, `SessionService`: server-side sessions.
- `UserService`: user records.
- `JwtHandler`: `create_access_token`, `get_current_user` and `get_current_admin`.
- `AuthController`: login and logout.
- `Services`: the service error type.
- `GreenhouseService`, `GreenhouseController`: greenhouses.
- `AlertService`, `AlertController`: alerts.
- `BadgeService`, `BadgesController`: badges.
- `HistoryRepository`: sensor history.

Several behaviours of the code differ from what its names suggest. The model follows the code, and each behaviour is proved.

- **The timeout measures time since login.** The inactivity timeout reads the `last_activity` claim of the token. That claim is fixed when the token is minted. The session's stored `last_activity` is written on every request but never read. (`JwtHandler.TimeoutIgnoresStoredActivity`, `JwtHandler.TimeoutMeasuresSinceLogin`)
- **The timeout cannot fire with the shipped settings.** Tokens live 30 minutes and the timeout is 60 minutes, so every token expires before its session can time out. (`JwtHandler.DefaultTimeoutUnreachable`)
- **A session can be reactivated.** The generic session update can set `is_active` back to true. (`SessionService.UpdateCanReactivate`) No endpoint of the core calls it, and the request pipeline never reactivates a session. (`JwtHandler.InactiveStaysRejected`)
- **The empty-badge-update error is unreachable.** A badge update always carries `greenhouse_id`, so the "nothing to update" error can never be raised. (`BadgeService.EmptyUpdateUnreachable`)
- **Undated history never matches a date range.** History readings stored without `recorded_at` never match a date-bounded search. (`HistoryRepository.UndatedNeverInRange`)

## Model

| member | source | states |
|---|---|---|
| BaseRepository.GetById | app/repositories/base_repository.py:30-39 | a document is returned exactly when the id is stored, with the stored fields and the id exposed as `id` |
| BaseRepository.Create | app/repositories/base_repository.py:17-28 | the insert fails with a duplicate key exactly when the id is taken; otherwise the new document reads back under its id, only that key is added and every other document is unchanged |
| BaseRepository.GetAll | app/repositories/base_repository.py:41-58 | a negative skip is an error; otherwise the result is the run of filter matches, in scan order, starting at `skip` and at most the absolute value of `limit` long (0 meaning no limit) |
| BaseRepository.LimitedCount | app/repositories/base_repository.py:50-51 | the number of documents a cursor yields is the available count capped by the absolute value of `limit`, uncapped for 0 |
| BaseRepository.MatchingAll | app/repositories/base_repository.py:45-49 | with no filter every stored document is scanned |
| BaseRepository.MatchingComplete | app/repositories/base_repository.py:45-49 | every stored document the filter accepts is among the matches |
| BaseRepository.MatchingBound | app/repositories/base_repository.py:45-49 | a filter never yields more documents than are stored |
| BaseRepository.SeqSetSize | app/repositories/base_repository.py:45-49 | a scan without repeated keys visits as many documents as it has keys |
| BaseRepository.GetAllWhole | app/repositories/base_repository.py:41-58 | from skip 0, a page limit the collection fits in returns every match |
| BaseRepository.GetAllCongruent | app/repositories/base_repository.py:41-58 | two filters that agree on every stored document give the same page |
| BaseRepository.FirstPage | app/repositories/base_repository.py:41-58 | from skip 0 the page is the leading run of the matches, as long as the limit allows |
| BaseRepository.FirstPageComplete | app/repositories/base_repository.py:41-58 | from skip 0, a page the collection fits in holds every stored document the filter accepts |
| BaseRepository.Update | app/repositories/base_repository.py:60-75 | the document is returned exactly when it exists and the patch or the new `updated_at` changes it; it carries the patched fields with `updated_at` set to now; the store changes at that key alone |
| BaseRepository.UpdateNoneIffAbsent | app/repositories/base_repository.py:60-75 | since `updated_at` always changes, nothing is returned exactly when the id is absent |
| BaseRepository.Delete | app/repositories/base_repository.py:77-87 | the result is true exactly when the id was stored; afterwards it is absent and nothing else changed |
| BaseRepository.CreateDeleteRoundTrip | app/repositories/base_repository.py:17-87 | creating a document under a fresh id and deleting it restores the collection |
| Sequences.Keep | app/controllers/greenhouse_controller.py:68 | the comprehension filter keeps, in order, exactly the elements that pass the test, and their number is the count of passing elements |
| Sequences.CountSplit | app/controllers/alert_controller.py:42-43 | the resolved and unresolved sums of one condition add up to the number of elements meeting it |
| Services.ToHttp | app/controllers/greenhouse_controller.py:21-24 | an HTTP error passes through; every other service error becomes a 500 whose detail is the error's message (for a store error, the representative message `StoreMessage`) |
| Services.CatchAll | app/controllers/badges_controller.py:110-111 | a handler without `except HTTPException: raise` turns every exception into a 500; an HTTP refusal keeps its status and message in the detail, as `"<status>: <detail>"` |
| Services.ParseNatToString | app/controllers/badges_controller.py:110-111 | the status code written into that detail reads back as the same code |
| Crypto.Hash | app/services/user_service.py:20-22 | hashing yields a well-formed bcrypt digest |
| Crypto.Verify | app/controllers/auth_controller.py:31 | verification raises exactly on a digest that is not a recognised bcrypt hash |
| Crypto.VerifyHash | app/services/user_service.py:20-22 | a digest verifies a candidate exactly when the candidate is the hashed password |
| Crypto.HashIsSalted | app/services/user_service.py:20-22 | two salts give two different digests of the same password |
| Crypto.Decode | app/auth/jwt_handler.py:34 | decoding succeeds exactly on a well-signed token whose `exp` has not passed, and yields its claims |
| Crypto.DecodeEncode | app/auth/jwt_handler.py:23-34 | a signed claim set decodes back to itself until it expires, and to the expiry error afterwards |
| SessionRepository.MonotoneTransitive | app/repositories/session_repository.py:15-51 | no repository operation removes a session or reactivates one, and this is preserved across steps |
| SessionRepository.Create | app/repositories/base_repository.py:17-28 | the insert fails exactly on a taken session id or document id; otherwise one active or inactive session is added and document ids stay unique |
| SessionRepository.GetBySessionId | app/repositories/session_repository.py:15-24 | a session is found exactly when it is stored and active |
| SessionRepository.InactiveLooksAbsent | app/repositories/session_repository.py:18 | to the lookup an inactive session is indistinguishable from a missing one |
| SessionRepository.UpdateLastActivity | app/repositories/session_repository.py:26-39 | only an active session is touched, its `last_activity` set to now and nothing else changed; otherwise the store is unchanged |
| SessionRepository.InvalidateSession | app/repositories/session_repository.py:41-51 | the result is true exactly when an active session was deactivated; a stored session ends inactive with its other fields intact; no key is added or removed |
| SessionRepository.InvalidateTwice | app/repositories/session_repository.py:44-48 | invalidating is idempotent and the second call reports no modification |
| SessionRepository.InvalidatedIsUnreachable | app/repositories/session_repository.py:15-39 | after invalidation the session is neither found nor touched |
| SessionService.ToModel | app/models/session_model.py:6-13 | the model carries the document's id, session id, user, status and `created_at`; `last_activity` is the stored one, or now when the record has none |
| SessionService.Create | app/services/session_service.py:19-29 | the caller's session id is replaced by a fresh one; creation fails exactly on a clash, else the new session reads back |
| SessionService.CreateIgnoresCallerSessionId | app/services/session_service.py:22-24 | two requests that differ only in the session id they carry create the same session |
| SessionService.GetBySessionId | app/services/session_service.py:69-76 | a model is returned exactly for a stored active session |
| SessionService.UpdateLastActivity | app/services/session_service.py:78-85 | an active session is touched and returned with `last_activity` equal to now; the store follows the repository |
| SessionService.InvalidateSession | app/services/session_service.py:87-93 | delegates to the repository: true exactly for an active session |
| SessionService.FindById | app/services/session_service.py:31-38 | the document id is found exactly when some session carries it, and the key found does |
| SessionService.GetById | app/services/session_service.py:31-38 | a model is returned exactly when a session carries the document id |
| SessionService.Update | app/services/session_service.py:49-59 | an empty update is a plain read; otherwise a write happens exactly when the status or `updated_at` changes, and then the store is the old one with that session's status set as asked and `updated_at` set to now; document ids stay unique |
| SessionService.UpdateCanReactivate | app/services/session_service.py:49-59 | an inactive session can be set active again through the generic update |
| UserService.GetById | app/services/user_service.py:42-49 | a user is returned exactly when the id is stored, with its stored fields |
| UserService.GetByEmail | app/services/user_service.py:51-58 | a user is returned exactly when some stored user has the email, and it is that user |
| UserService.Create | app/services/user_service.py:24-40 | a taken email is refused with 400; otherwise the user is stored with the password's digest, never the password, and emails stay unique |
| UserService.Update | app/services/user_service.py:86-104 | 400 exactly when another user has the new email; a `ValueError` exactly when nothing is set; otherwise the user is written exactly when it exists and the update changes it, only that user changes, a new password is stored hashed, and emails stay unique |
| UserService.OwnEmailAccepted | app/services/user_service.py:92-95 | re-submitting one's own email is not a conflict |
| JwtHandler.CreateAccessToken | app/auth/jwt_handler.py:15-24 | the token decodes to the caller's claims plus `exp` and `last_activity` until its lifetime ends, and is refused as expired afterwards |
| JwtHandler.TimedOutIsMinutesComparison | app/auth/jwt_handler.py:48-49 | the integer-second timeout test equals the source's elapsed-minutes comparison |
| JwtHandler.GetCurrentUser | app/auth/jwt_handler.py:26-71 | every failure is the credentials error or the inactivity error; no session is created, removed or reactivated |
| JwtHandler.SucceedsIff | app/auth/jwt_handler.py:33-68 | a principal is returned exactly when the token decodes with its three claims, its session is active and owned by `sub`, the timeout has not passed and the user exists; the principal carries the user's stored admin flag, and only that session is touched |
| JwtHandler.RejectedBeforeLookup | app/auth/jwt_handler.py:34-39 | an undecodable token, or one lacking a required claim, is refused without touching the store |
| JwtHandler.TimeoutClosesSession | app/auth/jwt_handler.py:47-51 | the inactivity error is raised exactly when the session matches and the claimed activity is too old, and then the session is invalidated |
| JwtHandler.InactiveSessionRejected | app/auth/jwt_handler.py:43-45 | a token naming an inactive session is refused with the credentials error and changes nothing |
| JwtHandler.AdminClaimIgnored | app/auth/jwt_handler.py:62-68 | tokens differing only in the `is_admin` claim give the same outcome |
| JwtHandler.TimeoutIgnoresStoredActivity | app/auth/jwt_handler.py:47-49 | the verdict does not depend on the session's stored `last_activity` |
| JwtHandler.TimeoutMeasuresSinceLogin | app/auth/jwt_handler.py:18-21 | a token older than the inactivity timeout is refused however recently its session was used |
| JwtHandler.DefaultTimeoutUnreachable | app/config/settings.py:20-22 | with the default 30-minute lifetime and 60-minute timeout no minted token ever gets the inactivity error |
| JwtHandler.Replay | app/auth/jwt_handler.py:26-71 | a sequence of requests never removes or reactivates a session |
| JwtHandler.InactiveStaysRejected | app/auth/jwt_handler.py:43-45 | once a session is inactive, every later request on it is refused with the credentials error, none of them changes the store, and the session stays inactive |
| JwtHandler.RejectedReplayIsIdentity | app/auth/jwt_handler.py:43-45 | requests on an inactive session leave the session store exactly as it was |
| JwtHandler.GetCurrentAdmin | app/auth/jwt_handler.py:73-77 | 403 exactly for a principal without the admin flag; the principal unchanged otherwise |
| AuthController.Login | app/controllers/auth_controller.py:21-50 | 401 exactly when the email is unknown or the password does not verify; success exactly when the password verifies and the new session and document ids are free; every failure leaves the sessions unchanged; success stores one new active session for the user and returns a bearer token for it |
| AuthController.LoginAddsOneSession | app/controllers/auth_controller.py:34-37 | a successful login adds exactly the fresh session and changes no other |
| AuthController.LoginThenAuthenticate | app/controllers/auth_controller.py:40-45 | the token of a successful login authenticates the same user on that session, with the stored admin flag, while it is young enough |
| AuthController.Logout | app/controllers/auth_controller.py:52-65 | the caller's session is invalidated; 404 exactly when it was not active |
| AuthController.LogoutRequest | app/controllers/auth_controller.py:52-57 | a logout request never removes or reactivates a session |
| AuthController.LogoutRevokesToken | app/controllers/auth_controller.py:57-60 | after a successful logout every token naming that session is refused |
| GreenhouseService.Create | app/services/greenhouse_service.py:20-33 | 400 exactly when the owner is not a stored user; success exactly when the owner exists and the new id is free, and then the greenhouse is stored as given |
| GreenhouseService.Update | app/services/greenhouse_service.py:71-81 | a `ValueError` exactly when nothing is set; otherwise the greenhouse is written exactly when it exists and the update changes it, only that greenhouse changes, and its owner is kept |
| GreenhouseController.Create | app/controllers/greenhouse_controller.py:12-24 | 403 exactly when the greenhouse is for someone else, administrators included; 400 for an unknown owner; success exactly when it is for the caller, the caller is a stored user and the id is free, and then it is stored |
| GreenhouseController.Authorize | app/controllers/greenhouse_controller.py:31-35 | 404 exactly for a missing greenhouse, 403 exactly when the caller is neither owner nor administrator |
| GreenhouseController.Get | app/controllers/greenhouse_controller.py:26-40 | the greenhouse is returned exactly to its owner or an administrator |
| GreenhouseController.ListByUser | app/controllers/greenhouse_controller.py:42-53 | 403 exactly when listing someone else's greenhouses without being an administrator; otherwise the first 100 of that user's greenhouses, in scan order |
| GreenhouseController.ListByUserComplete | app/controllers/greenhouse_controller.py:42-53 | when the collection fits on one page, a permitted caller gets every greenhouse of that user |
| GreenhouseController.SearchPage | app/repositories/greenhouse_repository.py:22-32 | the page is the run of greenhouses whose name the pattern accepts, in scan order, starting at `skip` and at most `limit` long |
| GreenhouseController.SearchPageComplete | app/repositories/greenhouse_repository.py:22-32 | from skip 0, a page the collection fits in holds every greenhouse whose name matches |
| GreenhouseController.Search | app/controllers/greenhouse_controller.py:55-73 | an administrator gets the page; anyone else gets, in order, exactly the greenhouses of the page they own |
| GreenhouseController.ListAll | app/controllers/greenhouse_controller.py:75-86 | 403 for non-administrators; otherwise the first 100 greenhouses in scan order |
| GreenhouseController.ListAllComplete | app/controllers/greenhouse_controller.py:75-86 | an administrator gets every greenhouse when they fit on one page |
| GreenhouseController.Update | app/controllers/greenhouse_controller.py:88-105 | 404 before 403; an empty update is a 500; success exactly for the owner or an administrator with a non-empty update that changes the greenhouse, and then the update is written to that greenhouse alone and its owner is kept |
| GreenhouseController.Delete | app/controllers/greenhouse_controller.py:107-124 | 404 before 403; success exactly for the owner or an administrator, and it removes that greenhouse alone |
| GreenhouseController.AccessIsUniform | app/controllers/greenhouse_controller.py:26-124 | get, update and delete refuse a stored greenhouse with 403 under the same condition |
| GreenhouseController.UpdateThenGet | app/controllers/greenhouse_controller.py:88-105 | a successful update is read back unchanged by the same caller |
| AlertService.Create | app/services/alert_service.py:20-33 | 400 exactly when the parent greenhouse is missing; success exactly when the parent exists and the new id is free, and then the alert is stored as given |
| AlertService.Update | app/services/alert_service.py:79-89 | a `ValueError` exactly when nothing is set; otherwise the alert is written exactly when it exists and the update changes it, only that alert changes, and it stays in its greenhouse |
| AlertController.Create | app/controllers/alert_controller.py:13-29 | 404 for a missing greenhouse, 403 unless owner or administrator, success exactly when both checks pass and the id is free, and nothing stored on failure |
| AlertController.AuthorizeAlert | app/controllers/alert_controller.py:72-87 | 404 for a missing alert; a 500 with the attribute error's text when its greenhouse is gone; 403 unless the caller owns that greenhouse or is an administrator |
| AlertController.Get | app/controllers/alert_controller.py:72-87 | the alert is returned exactly to whoever may access its greenhouse |
| AlertController.AccessFollowsParent | app/controllers/alert_controller.py:72-87 | reading an alert succeeds exactly when reading its greenhouse does |
| AlertController.ListByGreenhouse | app/controllers/alert_controller.py:89-103 | 404 exactly for a missing greenhouse, 403 exactly when the caller neither owns it nor is an administrator, success otherwise, with the first 100 alerts of that greenhouse in scan order |
| AlertController.ListByGreenhouseComplete | app/controllers/alert_controller.py:89-103 | when the alerts fit on one page, a permitted caller gets every alert of the greenhouse |
| AlertController.ListAll | app/controllers/alert_controller.py:105-116 | 403 for non-administrators; otherwise exactly what `get_all()` fetches, the first 100 alerts in scan order |
| AlertController.ListAllComplete | app/controllers/alert_controller.py:105-116 | an administrator gets every alert when they fit on one page |
| AlertController.Update | app/controllers/alert_controller.py:118-136 | every refusal of the alert checks (404, the missing-parent 500, 403) is passed on unchanged; an empty update is a 500; an update that changes nothing is a 404; success exactly when the checks pass and a non-empty update changes the alert, and then it changes that alert alone without moving it |
| AlertController.Delete | app/controllers/alert_controller.py:138-156 | succeeds exactly when the alert checks pass, and then removes that alert alone |
| AlertController.OwnedIds | app/controllers/alert_controller.py:39-40 | the ids are of greenhouses the caller owns, at most one page of them |
| AlertController.OwnedIdsComplete | app/controllers/alert_controller.py:39-40 | when the page holds the whole collection the ids are exactly the caller's greenhouses |
| AlertController.FetchedAlerts | app/controllers/alert_controller.py:41 | `get_all()` yields the first `limit` alerts in scan order, all of them for limit 0 |
| AlertController.FetchedAlertsComplete | app/controllers/alert_controller.py:41 | unpaginated, or when the collection fits on the page, every alert is fetched |
| AlertController.UserCountsPartition | app/controllers/alert_controller.py:42-43 | each fetched alert of the caller's greenhouses is counted once, as resolved or as unresolved |
| AlertController.Tally | app/controllers/alert_controller.py:42-43 | one pass computes both sums, and together they count the fetched alerts of the caller's greenhouses |
| AlertController.Count | app/controllers/alert_controller.py:31-49 | an administrator gets the database's grouping; anyone else gets the sums over the first 100 alerts and first 100 greenhouses, never more than 100 in total |
| AlertController.CountStopsAtOneHundred | app/controllers/alert_controller.py:39-43 | with over 100 alerts in a user's one greenhouse the reported total is 100, while the intended total is all of them |
| AlertController.CountUnpaginated | app/controllers/alert_controller.py:31-49 | with both lookups unpaginated a non-administrator gets, per status, the number of all alerts of their greenhouses |
| AlertController.SearchPage | app/repositories/alert_repository.py:41-56 | the page is the run of alerts the pattern accepts, in scan order, starting at `skip` and at most `limit` long |
| AlertController.SearchPageComplete | app/repositories/alert_repository.py:41-56 | from skip 0, a page the collection fits in holds every matching alert |
| AlertController.Search | app/controllers/alert_controller.py:51-70 | an administrator gets the page; anyone else gets, in order, exactly the alerts of the page whose greenhouse is among their first 100 |
| BadgeService.Create | app/services/badge_service.py:18-27 | the badge is stored as the caller's whatever owner the payload names |
| BadgeService.FieldsSet | app/schemas/badge_schema.py:16-20 | `greenhouse_id` is always set; `name` and `user_id` exactly when given |
| BadgeService.CheckOwner | app/services/badge_service.py:59-63 | 404 exactly for a missing badge, 403 exactly for a badge someone else owns |
| BadgeService.Update | app/services/badge_service.py:56-73 | fails exactly on the owner checks; otherwise the badge is written exactly when the update changes it, and success changes that badge alone |
| BadgeService.Delete | app/services/badge_service.py:75-86 | fails exactly on the owner checks; success removes that badge alone |
| BadgeService.OnlyCreatorMayChange | app/services/badge_service.py:18-86 | a new badge can be updated and deleted by its creator and by no one else |
| BadgeService.HandOver | app/services/badge_service.py:56-73 | setting `user_id` to someone else locks the previous owner out |
| BadgeService.EmptyUpdateUnreachable | app/services/badge_service.py:64-66 | the "nothing to update" error never occurs |
| BadgeService.ListByUser | app/services/badge_service.py:38-45 | the first 100 of the user's badges, in scan order |
| BadgeService.ListByUserComplete | app/services/badge_service.py:38-45 | when the badges fit on one page every badge of the user is listed |
| BadgeService.ListByGreenhouse | app/services/badge_service.py:47-54 | the first 100 badges of that user and greenhouse, in scan order |
| BadgeService.ListByGreenhouseComplete | app/services/badge_service.py:47-54 | when the badges fit on one page every badge of the user for the greenhouse is listed |
| BadgesController.Create | app/controllers/badges_controller.py:13-24 | the badge is stored as the caller's; the only failure, a taken id, is a 500 |
| BadgesController.Get | app/controllers/badges_controller.py:61-78 | 404 exactly for a missing badge; 403 exactly when the caller neither owns it nor is an administrator |
| BadgesController.ListByUser | app/controllers/badges_controller.py:26-41 | 403 exactly when listing someone else's badges without being an administrator; otherwise the service's first page |
| BadgesController.ListByGreenhouse | app/controllers/badges_controller.py:43-59 | the same rule for one greenhouse's badges |
| BadgesController.Update | app/controllers/badges_controller.py:80-96 | the service's 404 and 403 pass through, and 404 also reports an update that modified nothing; success exactly for the owner with an update that changes the badge, and it changes that badge alone |
| BadgesController.Delete | app/controllers/badges_controller.py:98-111 | succeeds exactly for the badge's owner and removes that badge alone; a missing badge or another owner's badge is a 500 with detail `404: …` or `403: …` |
| BadgesController.ListAll | app/controllers/badges_controller.py:113-123 | as written: 403 for non-administrators, and for administrators always a 500 carrying the `TypeError` of calling the one-argument `get_all(id)` of app/services/badge_service.py:88 with two arguments |
| BadgesController.ListAllIntended | app/controllers/badges_controller.py:113-123 | as intended: 403 for non-administrators, otherwise exactly the `skip`/`limit` slice of all badges in scan order |
| BadgesController.ListAllIntendedComplete | app/controllers/badges_controller.py:113-123 | the intended listing from skip 0 holds every badge when they fit on the page |
| BadgesController.ListAllNeverLists | app/controllers/badges_controller.py:113-123 | an administrator asking for the first page of a non-empty collection gets a 500 where the intended listing returns badges |
| BadgesController.AdminReadsButCannotDelete | app/controllers/badges_controller.py:61-111 | an administrator may read another user's badge but not delete it, and the refusal carries status 500 with 403 only in its detail |
| HistoryRepository.SetBound | app/repositories/history_repository.py:55-59 | the key gets a range with the chosen operator set to the value and the other operator kept from an existing range (unset otherwise); every other field's condition is kept |
| HistoryRepository.SearchFilter | app/repositories/history_repository.py:47-59 | the query names the greenhouse, bounds `recorded_at` exactly when a date is given and `temperature` exactly when a temperature is given |
| HistoryRepository.SearchFilterMeaning | app/repositories/history_repository.py:47-59 | a reading matches the query exactly when it is of the greenhouse and inside every given bound |
| HistoryRepository.Search | app/repositories/history_repository.py:35-63 | the result is the page of readings inside the window |
| HistoryRepository.UndatedNeverInRange | app/repositories/history_repository.py:48-53 | a reading without `recorded_at` never matches a date-bounded search |
| HistoryRepository.GreenhouseFilter | app/repositories/history_repository.py:18 | the query is equality on `greenhouse_id` alone |
| HistoryRepository.GetByGreenhouseId | app/repositories/history_repository.py:15-25 | the result is the page of that greenhouse's readings |
| HistoryRepository.UnboundedSearchIsLookup | app/repositories/history_repository.py:35-63 | a search with no bound is the greenhouse lookup |

## Left out

- Storage, network and the web framework: MongoDB I/O, Motor, FastAPI dependency injection and routing are not modelled. Each handler is a function called directly. In the routers, `/greenhouses/search` is declared after `/greenhouses/{id}`, so the framework sends it to `get_greenhouse` with the id `"search"`. The model describes the search handler as if it were reachable.
- Query-parameter validation (`ge`/`le` on `skip` and `limit`) happens before a handler runs. It appears as a precondition of the search handlers and of the badge listing.
- ObjectId parsing is not modelled. A malformed id string raises a bson error, which the controllers turn into a 500. Here ids are plain strings.
- The Mongo scan order is a parameter.
- The regular-expression matching of the search endpoints is a predicate parameter, because it is done by the database.
- AlertController.Count: the administrator's counts are a parameter, because `count_by_status` is a database aggregation.
- bcrypt and HS256 are symbolic. Salts are explicit parameters. bcrypt's 72-byte truncation and the signing key are not modelled.
- Times are integer seconds in one clock. Each operation reads the clock once.
- BaseRepository.Create: `created_at` and `updated_at` are set to the same instant, while the source reads the clock twice.
- JwtHandler.CreateAccessToken: `exp` and `last_activity` are set to the same instant, while the source reads the clock twice.
- Timezone conversion is not modelled.
- Sensor values are mathematical reals, so floating-point rounding and NaN are not modelled.
- Concurrency between requests is not modelled, and neither is the atomicity of Mongo operations.
- The `WWW-Authenticate` header of the 401 response is not modelled.
- The logging calls are not modelled.
- Pydantic validation of request bodies is not modelled. For example, an explicit `null` in an update payload is not distinguished from an unset field.
- Session and user operations outside the core are not modelled: `get_all`, `delete`, `count_by_role` and `search_by_email`.
- The user, history, actuator and settings controllers are not modelled. The e-mail service is not modelled either.
- The `"<status>: <detail>"` text of an `HTTPException` caught by a catch-all handler follows the web framework's `str`, which lies outside this repository.
- The history service's `create` is not modelled. It is the writer that never sets `recorded_at`, so a reading's `recordedAt` is optional in the model.
- The history repository's `count_by_greenhouse_id` is not modelled.
- Services.ToHttp: the 500 detail for a store error is a representative message (`StoreMessage`). The driver's own text is not modelled.

## Findings

| source | as written | input that shows it | evidently intended | confidence | as-written member | corrected member |
|---|---|---|---|---|---|---|
| app/controllers/alert_controller.py:39-43 | a non-administrator's counts are taken over `service.get_all()` and `get_by_user_id(...)`, both with the default limit of 100 | a user owning one greenhouse that holds 101 alerts, in a collection of at most 100 greenhouses | count every alert of every greenhouse the caller owns | high that the count is capped at 100; not executed | AlertController.CountStopsAtOneHundred | AlertController.CountUnpaginated |
| app/controllers/badges_controller.py:121 | `get_all_badges` calls `service.get_all(skip, limit)`, but `BadgeService` overrides `get_all` as `get_all(self, id)` (app/services/badge_service.py:88), so the call raises a `TypeError` that the catch-all turns into a 500 | an administrator requesting `GET /badges/?skip=0&limit=10` on a non-empty collection | return the requested page of all badges, as the endpoint's description says | high that every administrator call fails; not executed | BadgesController.ListAll | BadgesController.ListAllIntended |

=== FILE: alert_controller.dfy ===
/** The `/alerts` endpoints. An alert has no owner of its own: every access
    decision is made on the greenhouse it belongs to. */
module AlertController {
  import opened Wrappers
  import opened Common
  import opened BaseRepository
  import opened Services
  import Sequences
  import opened GreenhouseService
  import opened AlertService
  import opened JwtHandler
  import opened GreenhouseController

  const AlertNotFound := HttpError(NotFound, "Alerte non trouvée")
  const AlertForbidden := HttpError(Forbidden, "Accès non autorisé à cette alerte")
  const AlertDeletedMessage := "Alerte supprimée avec succès"

  /** `str(e)` of the `AttributeError` raised by `greenhouse.user_id` when the
      parent greenhouse is gone. */
  const NoParentMessage := "'NoneType' object has no attribute 'user_id'"

  /** The body of `/alerts/count`. */
  datatype StatusCounts = StatusCounts(resolved: nat, unresolved: nat)

  // ---------------------------------------------------------------------
  // Access through the parent greenhouse
  // ---------------------------------------------------------------------

  /** `create_alert`: 404 when the greenhouse is missing, 403 unless the
      caller owns it or is an administrator; nothing is stored in either
      case. The service's own parent check cannot fail after these. */
  function Create(alerts: Alerts, ghs: Greenhouses, p: Principal, data: AlertData, newId: Id, now: Time)
    : (r: (Result<AlertModel, HttpError>, Alerts))
    ensures r.0 == Failure(GreenhouseNotFound) <==> data.greenhouseId !in ghs
    ensures r.0 == Failure(GreenhouseForbidden) <==>
      data.greenhouseId in ghs && !OwnerOrAdmin(p, ghs[data.greenhouseId].data.userId)
    ensures r.0.Success? <==>
      data.greenhouseId in ghs && OwnerOrAdmin(p, ghs[data.greenhouseId].data.userId) && newId !in alerts
    ensures r.0.Failure? ==> r.1 == alerts
    ensures r.0.Failure? ==> r.0.error in {GreenhouseNotFound, GreenhouseForbidden, ToHttp(Store(DuplicateKey))}
    ensures r.0.Success? ==>
      && newId !in alerts
      && r.0.value.data == data
      && GetById(r.1, newId) == Some(r.0.value)
      && r.1.Keys == alerts.Keys + {newId}
  {
    match Authorize(ghs, p, data.greenhouseId)
    case Failure(e) => (Failure(e), alerts)
    case Success(_) =>
      match AlertService.Create(alerts, ghs, data, newId, now)
      case Failure(e) => (Failure(ToHttp(e)), alerts)
      case Success((alerts', a)) => (Success(a), alerts')
  }

  /** The check shared by get, update and delete: the alert must exist
      (404), its greenhouse must exist (otherwise the attribute read fails:
      500), and the caller must own that greenhouse or be an administrator
      (403). */
  function AuthorizeAlert(alerts: Alerts, ghs: Greenhouses, p: Principal, id: Id): (r: Result<AlertModel, HttpError>)
    ensures r == Failure(AlertNotFound) <==> id !in alerts
    ensures r == Failure(HttpError(InternalError, NoParentMessage)) <==>
      id in alerts && alerts[id].data.greenhouseId !in ghs
    ensures r == Failure(AlertForbidden) <==>
      && id in alerts && alerts[id].data.greenhouseId in ghs
      && !OwnerOrAdmin(p, ghs[alerts[id].data.greenhouseId].data.userId)
    ensures r.Success? ==> GetById(alerts, id) == Some(r.value)
  {
    match BaseRepository.GetById(alerts, id)
    case None => Failure(AlertNotFound)
    case Some(a) =>
      match BaseRepository.GetById(ghs, a.data.greenhouseId)
      case None => Failure(ToHttp(Attribute(NoParentMessage)))
      case Some(g) =>
        if g.data.userId != p.userId && !p.isAdmin then Failure(AlertForbidden) else Success(a)
  }

  /** `get_alert`. */
  function Get(alerts: Alerts, ghs: Greenhouses, p: Principal, id: Id): (r: Result<AlertModel, HttpError>)
    ensures r.Success? <==>
      && id in alerts && alerts[id].data.greenhouseId in ghs
      && OwnerOrAdmin(p, ghs[alerts[id].data.greenhouseId].data.userId)
    ensures r.Success? ==> r.value == ToDoc(id, alerts[id])
  {
    AuthorizeAlert(alerts, ghs, p, id)
  }

  /** Whoever may read a greenhouse may read its alerts, and no one else. */
  lemma AccessFollowsParent(alerts: Alerts, ghs: Greenhouses, p: Principal, id: Id)
    requires id in alerts
    ensures Get(alerts, ghs, p, id).Success? <==> GreenhouseController.Get(ghs, p, alerts[id].data.greenhouseId).Success?
  {
  }

  /** `get_alerts_by_greenhouse`: the greenhouse checks, then its first page
      of alerts. */
  function ListByGreenhouse(alerts: Alerts, scan: seq<Id>, ghs: Greenhouses, p: Principal, gid: Id)
    : (r: Result<seq<AlertModel>, HttpError>)
    requires IsScanOrder(alerts, scan)
    ensures r == Failure(GreenhouseNotFound) <==> gid !in ghs
    ensures r == Failure(GreenhouseForbidden) <==> gid in ghs && !OwnerOrAdmin(p, ghs[gid].data.userId)
    ensures r.Success? <==> gid in ghs && OwnerOrAdmin(p, ghs[gid].data.userId)
    ensures r.Success? ==>
      && |r.value| <= DefaultLimit
      && forall i :: 0 <= i < |r.value| ==> r.value[i].data.greenhouseId == gid && GetById(alerts, r.value[i].id) == Some(r.value[i])
    ensures r.Success? ==>
      var m := Matching(alerts, scan, Some(OfGreenhouse(gid)));
      r.value == m[..LimitedCount(|m|, DefaultLimit)]
  {
    match Authorize(ghs, p, gid)
    case Failure(e) => Failure(e)
    case Success(_) =>
      FirstPage(alerts, scan, Some(OfGreenhouse(gid)), DefaultLimit);
      Success(GetAll(alerts, scan, Some(OfGreenhouse(gid)), 0, DefaultLimit).value)
  }

  /** When the alerts fit on one page, a permitted caller sees every alert
      of the greenhouse. */
  lemma ListByGreenhouseComplete(alerts: Alerts, scan: seq<Id>, ghs: Greenhouses, p: Principal, gid: Id)
    requires IsScanOrder(alerts, scan)
    requires gid in ghs && OwnerOrAdmin(p, ghs[gid].data.userId)
    requires |alerts| <= DefaultLimit
    ensures forall id :: id in alerts && alerts[id].data.greenhouseId == gid ==>
      ToDoc(id, alerts[id]) in ListByGreenhouse(alerts, scan, ghs, p, gid).value
  {
    forall id | id in alerts && alerts[id].data.greenhouseId == gid
      ensures ToDoc(id, alerts[id]) in ListByGreenhouse(alerts, scan, ghs, p, gid).value
    {
      FirstPageComplete(alerts, scan, Some(OfGreenhouse(gid)), DefaultLimit, id);
    }
  }

  /** `get_all_alerts`: administrators only. */
  function ListAll(alerts: Alerts, scan: seq<Id>, p: Principal): (r: Result<seq<AlertModel>, HttpError>)
    requires IsScanOrder(alerts, scan)
    ensures r.Failure? <==> !p.isAdmin
    ensures r.Failure? ==> r.error == AdminOnlyError
    ensures r.Success? ==> |r.value| == (if |alerts| < DefaultLimit then |alerts| else DefaultLimit)
    ensures r.Success? ==> r.value == FetchedAlerts(alerts, scan, DefaultLimit)
  {
    if !p.isAdmin then Failure(AdminOnlyError)
    else
      MatchingAll(alerts, scan);
      Success(GetAll(alerts, scan, None, 0, DefaultLimit).value)
  }

  /** An administrator sees every alert when they fit on one page. */
  lemma ListAllComplete(alerts: Alerts, scan: seq<Id>, p: Principal)
    requires IsScanOrder(alerts, scan) && p.isAdmin
    requires |alerts| <= DefaultLimit
    ensures forall id :: id in alerts ==> ToDoc(id, alerts[id]) in ListAll(alerts, scan, p).value
  {
    FetchedAlertsComplete(alerts, scan, DefaultLimit);
  }

  /** `update_alert`: 404 before any ownership check; an update that sets
      nothing is a 500; 404 when the store reports nothing modified. */
  function Update(alerts: Alerts, ghs: Greenhouses, p: Principal, id: Id, upd: AlertUpdate, now: Time)
    : (r: (Result<AlertModel, HttpError>, Alerts))
    ensures id !in alerts ==> r.0 == Failure(AlertNotFound)
    ensures r.0 == Failure(AlertForbidden) <==> AuthorizeAlert(alerts, ghs, p, id) == Failure(AlertForbidden)
    ensures AuthorizeAlert(alerts, ghs, p, id).Failure? ==> r.0 == Failure(AuthorizeAlert(alerts, ghs, p, id).error)
    ensures
      && AuthorizeAlert(alerts, ghs, p, id).Success? && !AlertService.NoFieldSet(upd)
      && AlertService.Apply(alerts[id].data, upd) == alerts[id].data && alerts[id].updatedAt == now
      ==> r.0 == Failure(AlertNotFound)
    ensures AuthorizeAlert(alerts, ghs, p, id).Success? && AlertService.NoFieldSet(upd) ==>
      r.0 == Failure(HttpError(InternalError, AlertService.NothingToUpdate))
    ensures r.0.Success? <==>
      && AuthorizeAlert(alerts, ghs, p, id).Success? && !AlertService.NoFieldSet(upd)
      && (AlertService.Apply(alerts[id].data, upd) != alerts[id].data || alerts[id].updatedAt != now)
    ensures r.0.Failure? ==> r.1 == alerts
    ensures r.0.Success? ==>
      && AuthorizeAlert(alerts, ghs, p, id).Success?
      && r.0.value.data == AlertService.Apply(alerts[id].data, upd)
      && r.0.value.data.greenhouseId == alerts[id].data.greenhouseId
      && GetById(r.1, id) == Some(r.0.value)
      && AgreeExcept(alerts, r.1, id)
  {
    match AuthorizeAlert(alerts, ghs, p, id)
    case Failure(e) => (Failure(e), alerts)
    case Success(_) =>
      match AlertService.Update(alerts, id, upd, now)
      case Failure(e) => (Failure(ToHttp(e)), alerts)
      case Success((alerts', a)) =>
        if a.None? then (Failure(AlertNotFound), alerts') else (Success(a.value), alerts')
  }

  /** `delete_alert`: the same checks, then the alert alone is removed. */
  function Delete(alerts: Alerts, ghs: Greenhouses, p: Principal, id: Id): (r: (Result<string, HttpError>, Alerts))
    ensures r.0.Success? <==> AuthorizeAlert(alerts, ghs, p, id).Success?
    ensures r.0.Failure? ==> r.0.error == AuthorizeAlert(alerts, ghs, p, id).error && r.1 == alerts
    ensures r.0.Success? ==> r.0.value == AlertDeletedMessage && r.1 == alerts - {id}
  {
    match AuthorizeAlert(alerts, ghs, p, id)
    case Failure(e) => (Failure(e), alerts)
    case Success(_) =>
      var (alerts', removed) := BaseRepository.Delete(alerts, id);
      if !removed then (Failure(AlertNotFound), alerts') else (Success(AlertDeletedMessage), alerts')
  }

  // ---------------------------------------------------------------------
  // Non-admin search and counting
  // ---------------------------------------------------------------------

  /** `greenhouse_ids`: the ids of the caller's greenhouses as
      `get_by_user_id` returns them, one page of at most `limit`. */
  function OwnedIds(ghs: Greenhouses, scan: seq<Id>, owner: Id, limit: int): (ids: seq<Id>)
    requires IsScanOrder(ghs, scan)
    ensures forall g :: g in ids ==> g in ghs && ghs[g].data.userId == owner
    ensures limit > 0 ==> |ids| <= limit
  {
    var gs := GetAll(ghs, scan, Some(OwnerIs(owner)), 0, limit).value;
    seq(|gs|, i requires 0 <= i < |gs| => gs[i].id)
  }

  /** Without a page limit, or when the whole collection fits on the page,
      the ids are exactly the caller's greenhouses. */
  lemma OwnedIdsComplete(ghs: Greenhouses, scan: seq<Id>, owner: Id, limit: int)
    requires IsScanOrder(ghs, scan)
    requires limit == 0 || |ghs| <= limit
    ensures forall g :: g in OwnedIds(ghs, scan, owner, limit) <==> g in ghs && ghs[g].data.userId == owner
  {
    var filter := Some(OwnerIs(owner));
    GetAllWhole(ghs, scan, filter, limit);
    var gs := Matching(ghs, scan, filter);
    var ids := OwnedIds(ghs, scan, owner, limit);
    forall g | g in ghs && ghs[g].data.userId == owner
      ensures g in ids
    {
      MatchingComplete(ghs, scan, filter, g);
      var i :| 0 <= i < |gs| && gs[i] == ToDoc(g, ghs[g]);
      assert ids[i] == g;
    }
  }

  /** The first `limit` alerts of the collection (`service.get_all()`). */
  function FetchedAlerts(alerts: Alerts, scan: seq<Id>, limit: int): (r: seq<AlertModel>)
    requires IsScanOrder(alerts, scan)
    ensures forall i :: 0 <= i < |r| ==> GetById(alerts, r[i].id) == Some(r[i])
    ensures |r| == LimitedCount(|alerts|, limit)
    ensures var m := Matching(alerts, scan, None);
      r == m[..LimitedCount(|m|, limit)]
  {
    MatchingAll(alerts, scan);
    FirstPage(alerts, scan, None, limit);
    GetAll(alerts, scan, None, 0, limit).value
  }

  /** Unpaginated, or when the collection fits on the page, every alert is
      fetched. */
  lemma FetchedAlertsComplete(alerts: Alerts, scan: seq<Id>, limit: int)
    requires IsScanOrder(alerts, scan)
    requires limit == 0 || |alerts| <= limit
    ensures forall id :: id in alerts ==> ToDoc(id, alerts[id]) in FetchedAlerts(alerts, scan, limit)
  {
    forall id | id in alerts
      ensures ToDoc(id, alerts[id]) in FetchedAlerts(alerts, scan, limit)
    {
      FirstPageComplete(alerts, scan, None, limit, id);
    }
  }

  /** An alert of one of the greenhouses `ids`. */
  function InGreenhouses(ids: seq<Id>): (AlertModel -> bool) {
    (a: AlertModel) => a.data.greenhouseId in ids
  }

  /** An alert of one of the greenhouses `ids` with the given status. */
  function InGreenhousesWithStatus(ids: seq<Id>, resolved: bool): (AlertModel -> bool) {
    (a: AlertModel) => a.data.greenhouseId in ids && a.data.isResolved == resolved
  }

  /** The two sums of `count_alerts`' non-admin branch. */
  function UserCounts(fetched: seq<AlertModel>, ids: seq<Id>): StatusCounts {
    StatusCounts(Sequences.Count(fetched, InGreenhousesWithStatus(ids, true)),
                 Sequences.Count(fetched, InGreenhousesWithStatus(ids, false)))
  }

  /** Each fetched alert of the caller's greenhouses is counted in exactly
      one bucket. */
  lemma UserCountsPartition(fetched: seq<AlertModel>, ids: seq<Id>)
    ensures UserCounts(fetched, ids).resolved + UserCounts(fetched, ids).unresolved
         == Sequences.Count(fetched, InGreenhouses(ids))
  {
    Sequences.CountSplit(fetched, InGreenhouses(ids), (a: AlertModel) => a.data.isResolved,
                         InGreenhousesWithStatus(ids, true), InGreenhousesWithStatus(ids, false));
  }

  /** The two sums, computed in one pass. */
  method Tally(fetched: seq<AlertModel>, ids: seq<Id>) returns (c: StatusCounts)
    ensures c.resolved == Sequences.Count(fetched, InGreenhousesWithStatus(ids, true))
    ensures c.unresolved == Sequences.Count(fetched, InGreenhousesWithStatus(ids, false))
    ensures c.resolved + c.unresolved == Sequences.Count(fetched, InGreenhouses(ids))
  {
    var resolved, unresolved := 0, 0;
    var i := 0;
    while i < |fetched|
      invariant 0 <= i <= |fetched|
      invariant resolved == Sequences.Count(fetched[..i], InGreenhousesWithStatus(ids, true))
      invariant unresolved == Sequences.Count(fetched[..i], InGreenhousesWithStatus(ids, false))
    {
      Sequences.CountPrefix(fetched, InGreenhousesWithStatus(ids, true), i);
      Sequences.CountPrefix(fetched, InGreenhousesWithStatus(ids, false), i);
      var a := fetched[i];
      if a.data.greenhouseId in ids {
        if a.data.isResolved {
          resolved := resolved + 1;
        } else {
          unresolved := unresolved + 1;
        }
      }
      i := i + 1;
    }
    assert fetched[..|fetched|] == fetched;
    c := StatusCounts(resolved, unresolved);
    UserCountsPartition(fetched, ids);
  }

  /** `count_alerts` as written: an administrator gets the database's
      grouping (`adminCounts`, computed outside the model); anyone else gets
      the two sums over the first page of ALL alerts, restricted to the first
      page of their greenhouses. */
  method Count(p: Principal, adminCounts: StatusCounts, ghs: Greenhouses, gscan: seq<Id>, alerts: Alerts, ascan: seq<Id>)
    returns (c: StatusCounts)
    requires IsScanOrder(ghs, gscan) && IsScanOrder(alerts, ascan)
    ensures p.isAdmin ==> c == adminCounts
    ensures !p.isAdmin ==>
      var fetched := FetchedAlerts(alerts, ascan, DefaultLimit);
      var ids := OwnedIds(ghs, gscan, p.userId, DefaultLimit);
      && c == UserCounts(fetched, ids)
      && c.resolved + c.unresolved == Sequences.Count(fetched, InGreenhouses(ids))
      && c.resolved + c.unresolved <= DefaultLimit
  {
    if p.isAdmin {
      c := adminCounts;
    } else {
      var fetched := FetchedAlerts(alerts, ascan, DefaultLimit);
      var ids := OwnedIds(ghs, gscan, p.userId, DefaultLimit);
      c := Tally(fetched, ids);
    }
  }

  /** An alert of a greenhouse `owner` owns, with the given status. */
  function OwnedWithStatus(ghs: Greenhouses, owner: Id, resolved: bool): (AlertModel -> bool) {
    (a: AlertModel) =>
      a.data.greenhouseId in ghs && ghs[a.data.greenhouseId].data.userId == owner && a.data.isResolved == resolved
  }

  /** What the count promises: for each status, the number of alerts in the
      whole collection that belong to the caller's greenhouses. */
  function IntendedCounts(ghs: Greenhouses, alerts: Alerts, ascan: seq<Id>, owner: Id): StatusCounts
    requires IsScanOrder(alerts, ascan)
  {
    var all := Matching(alerts, ascan, None);
    StatusCounts(Sequences.Count(all, OwnedWithStatus(ghs, owner, true)),
                 Sequences.Count(all, OwnedWithStatus(ghs, owner, false)))
  }

  /** The page limit of `get_all()` caps the non-admin count at 100: a caller
      whose one greenhouse holds 101 or more alerts is told there are 100. */
  lemma {:induction false} CountStopsAtOneHundred(
    ghs: Greenhouses, gscan: seq<Id>, alerts: Alerts, ascan: seq<Id>, owner: Id, gid: Id)
    requires IsScanOrder(ghs, gscan) && IsScanOrder(alerts, ascan)
    requires |ghs| <= DefaultLimit && gid in ghs && ghs[gid].data.userId == owner
    requires |alerts| > DefaultLimit
    requires forall id :: id in alerts ==> alerts[id].data.greenhouseId == gid
    ensures var c := UserCounts(FetchedAlerts(alerts, ascan, DefaultLimit), OwnedIds(ghs, gscan, owner, DefaultLimit));
      c.resolved + c.unresolved == DefaultLimit
    ensures var c := IntendedCounts(ghs, alerts, ascan, owner);
      c.resolved + c.unresolved == |alerts|
  {
    var fetched := FetchedAlerts(alerts, ascan, DefaultLimit);
    var ids := OwnedIds(ghs, gscan, owner, DefaultLimit);
    OwnedIdsComplete(ghs, gscan, owner, DefaultLimit);
    assert gid in ids;
    assert forall i :: 0 <= i < |fetched| ==> InGreenhouses(ids)(fetched[i]);
    Sequences.CountAll(fetched, InGreenhouses(ids));
    UserCountsPartition(fetched, ids);

    var all := Matching(alerts, ascan, None);
    MatchingAll(alerts, ascan);
    var owned := (a: AlertModel) => a.data.greenhouseId in ghs && ghs[a.data.greenhouseId].data.userId == owner;
    assert forall i :: 0 <= i < |all| ==> owned(all[i]);
    Sequences.CountAll(all, owned);
    Sequences.CountSplit(all, owned, (a: AlertModel) => a.data.isResolved,
                         OwnedWithStatus(ghs, owner, true), OwnedWithStatus(ghs, owner, false));
  }

  /** `count_alerts` with both lookups unpaginated, as the count intends. */
  method CountUnpaginated(p: Principal, adminCounts: StatusCounts, ghs: Greenhouses, gscan: seq<Id>, alerts: Alerts, ascan: seq<Id>)
    returns (c: StatusCounts)
    requires IsScanOrder(ghs, gscan) && IsScanOrder(alerts, ascan)
    ensures p.isAdmin ==> c == adminCounts
    ensures !p.isAdmin ==> c == IntendedCounts(ghs, alerts, ascan, p.userId)
  {
    if p.isAdmin {
      c := adminCounts;
    } else {
      var fetched := FetchedAlerts(alerts, ascan, 0);
      var ids := OwnedIds(ghs, gscan, p.userId, 0);
      c := Tally(fetched, ids);
      GetAllWhole(alerts, ascan, None, 0);
      OwnedIdsComplete(ghs, gscan, p.userId, 0);
      Sequences.CountCongruent(fetched, InGreenhousesWithStatus(ids, true), OwnedWithStatus(ghs, p.userId, true));
      Sequences.CountCongruent(fetched, InGreenhousesWithStatus(ids, false), OwnedWithStatus(ghs, p.userId, false));
    }
  }

  /** The page `search` fetches: alerts whose type or message the
      database's pattern accepts (`matches`). */
  function SearchPage(alerts: Alerts, scan: seq<Id>, matches: AlertData -> bool, skip: nat, limit: nat)
    : (r: seq<AlertModel>)
    requires IsScanOrder(alerts, scan)
    ensures limit > 0 ==> |r| <= limit
    ensures forall i :: 0 <= i < |r| ==> matches(r[i].data) && GetById(alerts, r[i].id) == Some(r[i])
    ensures var m := Matching(alerts, scan, Some(matches));
      && (skip >= |m| ==> r == [])
      && (skip < |m| ==> r == m[skip..skip + LimitedCount(|m| - skip, limit)])
  {
    GetAll(alerts, scan, Some(matches), skip, limit).value
  }

  /** The first page holds every matching alert when the collection fits on
      it. */
  lemma SearchPageComplete(alerts: Alerts, scan: seq<Id>, matches: AlertData -> bool, limit: nat)
    requires IsScanOrder(alerts, scan)
    requires limit == 0 || |alerts| <= limit
    ensures forall id :: id in alerts && matches(alerts[id].data) ==> ToDoc(id, alerts[id]) in SearchPage(alerts, scan, matches, 0, limit)
  {
    forall id | id in alerts && matches(alerts[id].data)
      ensures ToDoc(id, alerts[id]) in SearchPage(alerts, scan, matches, 0, limit)
    {
      FirstPageComplete(alerts, scan, Some(matches), limit, id);
    }
  }

  /** `search_alerts`: administrators get the page unfiltered; anyone else
      gets, in order, the alerts of the page whose greenhouse is among their
      first page of greenhouses. */
  function Search(alerts: Alerts, ascan: seq<Id>, ghs: Greenhouses, gscan: seq<Id>, p: Principal,
                  matches: AlertData -> bool, skip: int, limit: int)
    : (r: seq<AlertModel>)
    requires IsScanOrder(alerts, ascan) && IsScanOrder(ghs, gscan)
    requires 0 <= skip && 1 <= limit <= 100
    ensures var page := SearchPage(alerts, ascan, matches, skip, limit);
      && Sequences.IsSubsequence(r, page)
      && (p.isAdmin ==> r == page)
      && (!p.isAdmin ==>
        var ids := OwnedIds(ghs, gscan, p.userId, DefaultLimit);
        && (forall i :: 0 <= i < |r| ==> r[i].data.greenhouseId in ids)
        && (forall i :: 0 <= i < |r| ==> ghs[r[i].data.greenhouseId].data.userId == p.userId)
        && (forall i :: 0 <= i < |page| && page[i].data.greenhouseId in ids ==> page[i] in r))
  {
    var page := SearchPage(alerts, ascan, matches, skip, limit);
    if p.isAdmin then
      Sequences.SubsequenceReflexive(page);
      page
    else
      Sequences.Keep(page, InGreenhouses(OwnedIds(ghs, gscan, p.userId, DefaultLimit)))
  }
}

=== FILE: alert_service.dfy ===
/** `AlertService`: alert records, the parent check on creation and the
    empty-update rule. */
module AlertService {
  import opened Wrappers
  import opened Common
  import opened BaseRepository
  import opened Services
  import GreenhouseService

  /** The stored fields of an alert; `kind` is the `type` field. */
  datatype AlertData = AlertData(greenhouseId: Id, kind: string, value: real, message: string, isResolved: bool)

  type Alerts = Collection<AlertData>

  type AlertModel = Doc<AlertData>

  /** `AlertUpdate`: every field optional and none of them the parent
      greenhouse, so an alert never moves to another greenhouse. */
  datatype AlertUpdate = AlertUpdate(kind: Option<string>, value: Option<real>, message: Option<string>, isResolved: Option<bool>)

  /** The query `{"greenhouse_id": gid}`. */
  function OfGreenhouse(gid: Id): (AlertData -> bool) {
    (a: AlertData) => a.greenhouseId == gid
  }

  const ParentNotFound := HttpError(BadRequest, "Serre non trouvée")
  const NothingToUpdate := "Aucune donnée à mettre à jour"

  /** `create`: the parent greenhouse must exist (400 otherwise). */
  function Create(alerts: Alerts, ghs: GreenhouseService.Greenhouses, data: AlertData, newId: Id, now: Time)
    : (r: Result<(Alerts, AlertModel), ServiceError>)
    ensures r == Failure(Http(ParentNotFound)) <==> data.greenhouseId !in ghs
    ensures r.Failure? ==> r == Failure(Http(ParentNotFound)) || r == Failure(Store(DuplicateKey))
    ensures r.Success? <==> data.greenhouseId in ghs && newId !in alerts
    ensures r.Success? ==>
      && data.greenhouseId in ghs
      && r.value.1.id == newId && r.value.1.data == data
      && GetById(r.value.0, newId) == Some(r.value.1)
      && r.value.0.Keys == alerts.Keys + {newId}
      && AgreeExcept(alerts, r.value.0, newId)
  {
    if BaseRepository.GetById(ghs, data.greenhouseId).None? then Failure(Http(ParentNotFound))
    else
      match BaseRepository.Create(alerts, newId, data, now)
      case Failure(e) => Failure(Store(e))
      case Success(res) => Success(res)
  }

  function Apply(a: AlertData, upd: AlertUpdate): AlertData {
    a.(kind := if upd.kind.Some? then upd.kind.value else a.kind,
       value := if upd.value.Some? then upd.value.value else a.value,
       message := if upd.message.Some? then upd.message.value else a.message,
       isResolved := if upd.isResolved.Some? then upd.isResolved.value else a.isResolved)
  }

  predicate NoFieldSet(upd: AlertUpdate) {
    upd.kind.None? && upd.value.None? && upd.message.None? && upd.isResolved.None?
  }

  /** `update`: an update that sets nothing is a `ValueError` and writes
      nothing; otherwise the base update. */
  function Update(alerts: Alerts, id: Id, upd: AlertUpdate, now: Time)
    : (r: Result<(Alerts, Option<AlertModel>), ServiceError>)
    ensures r.Failure? <==> NoFieldSet(upd)
    ensures r.Failure? ==> r.error == ValueError(NothingToUpdate)
    ensures r.Success? ==> AgreeExcept(alerts, r.value.0, id) && r.value.0.Keys == alerts.Keys
    ensures r.Success? && r.value.1.None? ==> r.value.0 == alerts
    ensures r.Success? ==> (r.value.1.Some? <==>
      id in alerts && (Apply(alerts[id].data, upd) != alerts[id].data || alerts[id].updatedAt != now))
    ensures r.Success? && r.value.1.Some? ==>
      && id in alerts
      && r.value.1.value.data == Apply(alerts[id].data, upd)
      && r.value.1.value.data.greenhouseId == alerts[id].data.greenhouseId
      && GetById(r.value.0, id) == r.value.1
  {
    if NoFieldSet(upd) then Failure(ValueError(NothingToUpdate))
    else Success(BaseRepository.Update(alerts, id, a => Apply(a, upd), now))
  }
}

=== FILE: auth_controller.dfy ===
/** The `/auth/login` and `/auth/logout` flows. */
module AuthController {
  import opened Wrappers
  import opened Common
  import opened Settings
  import opened Crypto
  import SessionRepository
  import SessionService
  import UserService
  import opened JwtHandler

  /** The login response body. */
  datatype TokenResponse = TokenResponse(accessToken: Token, tokenType: string)

  const BadLogin := HttpError(Unauthorized, "Email ou mot de passe incorrect")
  const ServerError := HttpError(InternalError, "Erreur interne du serveur")
  const SessionNotFound := HttpError(NotFound, "Session non trouvée")
  const LogoutMessage := "Déconnexion réussie"

  /** The claims a successful login signs. */
  function LoginClaims(user: UserService.UserModel, sid: string): Claims {
    Claims(Some(user.id), Some(sid), Some(user.data.isAdmin), None, None)
  }

  /** `login`: looks the user up by e-mail, verifies the password, creates a
      new session under the freshly generated `freshSid` and document id
      `oid`, and mints a bearer token for it. An unknown address and a wrong
      password give the same 401; any other exception (an unidentifiable
      digest, an insert that collides) becomes a generic 500. */
  function Login(
    users: UserService.Users, sessions: SessionRepository.Store, email: string, password: string,
    freshSid: string, oid: Id, now: Time, cfg: Config)
    : (r: (Result<TokenResponse, HttpError>, SessionRepository.Store))
    requires UserService.EmailsUnique(users)
    ensures r.0 == Failure(BadLogin) <==>
      var user := UserService.GetByEmail(users, email);
      user.None? || Verify(password, user.value.data.hashedPassword) == Success(false)
    ensures r.0.Failure? ==> r.1 == sessions && (r.0.error == BadLogin || r.0.error == ServerError)
    ensures r.0.Success? <==>
      var user := UserService.GetByEmail(users, email);
      && user.Some? && Verify(password, user.value.data.hashedPassword) == Success(true)
      && freshSid !in sessions && !SessionRepository.IdInUse(sessions, oid)
    ensures r.0.Success? ==>
      var user := UserService.GetByEmail(users, email).value;
      && Verify(password, user.data.hashedPassword) == Success(true)
      && freshSid !in sessions
      && r.1 == sessions[freshSid := SessionRepository.SessionRecord(oid, user.id, true, None, now, now)]
      && r.0.value.tokenType == "bearer"
      && r.0.value.accessToken == CreateAccessToken(LoginClaims(user, freshSid), now, cfg)
  {
    match UserService.GetByEmail(users, email)
    case None => (Failure(BadLogin), sessions)
    case Some(user) =>
      match Verify(password, user.data.hashedPassword)
      case Failure(_) => (Failure(ServerError), sessions)
      case Success(ok) =>
        if !ok then (Failure(BadLogin), sessions)
        else
          match SessionService.Create(sessions, SessionService.SessionCreate(user.id, "", true), freshSid, oid, now)
          case Failure(_) => (Failure(ServerError), sessions)
          case Success((sessions', session)) =>
            var token := CreateAccessToken(LoginClaims(user, session.sessionId), now, cfg);
            (Success(TokenResponse(token, "bearer")), sessions')
  }

  /** A login leaves every earlier session as it was: sessions are never
      reused or reactivated, one new active session is added. */
  lemma LoginAddsOneSession(
    users: UserService.Users, sessions: SessionRepository.Store, email: string, password: string,
    freshSid: string, oid: Id, now: Time, cfg: Config)
    requires UserService.EmailsUnique(users)
    ensures var r := Login(users, sessions, email, password, freshSid, oid, now, cfg);
      r.0.Success? ==>
        && r.1.Keys == sessions.Keys + {freshSid}
        && |r.1| == |sessions| + 1
        && SessionRepository.Monotone(sessions, r.1)
        && SessionRepository.AgreeExcept(sessions, r.1, freshSid)
  {
  }

  /** The token returned by a successful login authenticates its user for as
      long as it has neither expired nor timed out, and the principal names
      the logged-in user with the admin flag of the user record. Stored ids
      are generated ObjectIds and session ids are uuid4 strings, so neither
      is empty. */
  lemma {:induction false} LoginThenAuthenticate(
    users: UserService.Users, sessions: SessionRepository.Store, email: string, password: string,
    freshSid: string, oid: Id, loginAt: Time, now: Time, cfg: Config)
    requires UserService.EmailsUnique(users)
    requires "" !in users && freshSid != ""
    requires loginAt <= now
    requires now - loginAt <= TokenLifetime(cfg) && now - loginAt <= InactivityTimeout(cfg)
    ensures var r := Login(users, sessions, email, password, freshSid, oid, loginAt, cfg);
      r.0.Success? ==>
        var user := UserService.GetByEmail(users, email).value;
        var auth := GetCurrentUser(r.1, users, r.0.value.accessToken, now, cfg);
        && auth.0.Success?
        && auth.0.value.userId == user.id
        && auth.0.value.sessionId == freshSid
        && auth.0.value.isAdmin == users[user.id].data.isAdmin
  {
    var r := Login(users, sessions, email, password, freshSid, oid, loginAt, cfg);
    if r.0.Success? {
      var user := UserService.GetByEmail(users, email).value;
      var token := r.0.value.accessToken;
      assert token.claims == Minted(LoginClaims(user, freshSid), loginAt, cfg);
      assert Truthy(token.claims.sub) && Truthy(token.claims.sessionId);
      SucceedsIff(r.1, users, token, now, cfg);
    }
  }

  /** `logout`: invalidates the principal's session; 404 when the store
      reports that nothing changed. */
  function Logout(sessions: SessionRepository.Store, principal: Principal)
    : (r: (Result<string, HttpError>, SessionRepository.Store))
    ensures r.0.Success? <==> principal.sessionId in sessions && sessions[principal.sessionId].isActive
    ensures r.0.Failure? ==> r.0.error == SessionNotFound && r.1 == sessions
    ensures r.1 == SessionRepository.InvalidateSession(sessions, principal.sessionId).0
  {
    var (sessions', changed) := SessionService.InvalidateSession(sessions, principal.sessionId);
    if !changed then (Failure(SessionNotFound), sessions') else (Success(LogoutMessage), sessions')
  }

  /** The logout endpoint: authenticate, then log out. */
  function LogoutRequest(
    sessions: SessionRepository.Store, users: UserService.Users, token: Token, now: Time, cfg: Config)
    : (r: (Result<string, HttpError>, SessionRepository.Store))
    ensures SessionRepository.Monotone(sessions, r.1)
  {
    var (auth, sessions1) := GetCurrentUser(sessions, users, token, now, cfg);
    match auth
    case Failure(e) => (Failure(e), sessions1)
    case Success(principal) =>
      var r := Logout(sessions1, principal);
      SessionRepository.MonotoneTransitive(sessions, sessions1, r.1);
      r
  }

  /** An authenticated logout always succeeds, and from then on the same
      token (or any token for that session) no longer authenticates. */
  lemma {:induction false} LogoutRevokesToken(
    sessions: SessionRepository.Store, users: UserService.Users, token: Token, now: Time, later: Time, other: Token, cfg: Config)
    requires GetCurrentUser(sessions, users, token, now, cfg).0.Success?
    requires other.Signed? && other.claims.sessionId == token.claims.sessionId
    ensures LogoutRequest(sessions, users, token, now, cfg).0.Success?
    ensures var after := LogoutRequest(sessions, users, token, now, cfg).1;
      GetCurrentUser(after, users, other, later, cfg).0 == Failure(CredentialsError)
  {
    SucceedsIff(sessions, users, token, now, cfg);
    var (auth, sessions1) := GetCurrentUser(sessions, users, token, now, cfg);
    var sid := auth.value.sessionId;
    assert sid in sessions1 && sessions1[sid].isActive;
    var after := LogoutRequest(sessions, users, token, now, cfg).1;
    assert after == SessionRepository.InvalidateSession(sessions1, sid).0;
    InactiveSessionRejected(after, users, other, later, cfg);
  }
}

=== FILE: badge_service.dfy ===
/** `BadgeService`: RFID badges. Unlike greenhouses, badges have no
    administrator exception: only a badge's owner may change or delete it. */
module BadgeService {
  import opened Wrappers
  import opened Common
  import opened BaseRepository
  import opened Services

  /** The stored fields of a badge. */
  datatype BadgeData = BadgeData(name: string, userId: Id, greenhouseId: Id)

  type Badges = Collection<BadgeData>

  type BadgeModel = Doc<BadgeData>

  /** `BadgeUpdate`: `name` and `user_id` are optional, `greenhouse_id` is a
      required field. */
  datatype BadgeUpdate = BadgeUpdate(name: Option<string>, userId: Option<Id>, greenhouseId: Id)

  const BadgeNotFound := HttpError(NotFound, "Badge non trouvé")
  const NotOwner := HttpError(Forbidden, "Non autorisé")
  const NothingToUpdate := "Aucune donnée à mettre à jour"

  /** `create`: whatever owner the payload names, the badge is stored as the
      caller's. */
  function Create(badges: Badges, data: BadgeData, caller: Id, newId: Id, now: Time)
    : (r: Result<(Badges, BadgeModel), ServiceError>)
    ensures r.Failure? <==> newId in badges
    ensures r.Failure? ==> r.error == Store(DuplicateKey)
    ensures r.Success? ==>
      && r.value.1.data.userId == caller
      && r.value.1.data.name == data.name && r.value.1.data.greenhouseId == data.greenhouseId
      && GetById(r.value.0, newId) == Some(r.value.1)
      && r.value.0.Keys == badges.Keys + {newId}
      && AgreeExcept(badges, r.value.0, newId)
  {
    match BaseRepository.Create(badges, newId, data.(userId := caller), now)
    case Failure(e) => Failure(Store(e))
    case Success(res) => Success(res)
  }

  /** The names of the fields `model_dump(exclude_unset=True)` keeps. */
  function FieldsSet(upd: BadgeUpdate): (fields: set<string>)
    ensures "greenhouse_id" in fields
    ensures "name" in fields <==> upd.name.Some?
    ensures "user_id" in fields <==> upd.userId.Some?
  {
    {"greenhouse_id"}
      + (if upd.name.Some? then {"name"} else {})
      + (if upd.userId.Some? then {"user_id"} else {})
  }

  function Apply(b: BadgeData, upd: BadgeUpdate): BadgeData {
    BadgeData(if upd.name.Some? then upd.name.value else b.name,
              if upd.userId.Some? then upd.userId.value else b.userId,
              upd.greenhouseId)
  }

  /** The owner check shared by update and delete: 404 for a missing badge,
      then 403 for anyone but its owner, administrators included. */
  function CheckOwner(badges: Badges, id: Id, caller: Id): (r: Option<ServiceError>)
    ensures r == Some(Http(BadgeNotFound)) <==> id !in badges
    ensures r == Some(Http(NotOwner)) <==> id in badges && badges[id].data.userId != caller
    ensures r.None? <==> id in badges && badges[id].data.userId == caller
  {
    match BaseRepository.GetById(badges, id)
    case None => Some(Http(BadgeNotFound))
    case Some(b) => if b.data.userId != caller then Some(Http(NotOwner)) else None
  }

  /** `update`: the owner checks, then the empty-update check, then the base
      update; None when the store reports nothing modified. */
  function Update(badges: Badges, id: Id, upd: BadgeUpdate, caller: Id, now: Time)
    : (r: Result<(Badges, Option<BadgeModel>), ServiceError>)
    ensures r.Failure? <==> CheckOwner(badges, id, caller).Some?
    ensures r.Failure? ==> r.error == CheckOwner(badges, id, caller).value
    ensures r.Success? ==> AgreeExcept(badges, r.value.0, id) && r.value.0.Keys == badges.Keys
    ensures r.Success? && r.value.1.None? ==> r.value.0 == badges
    ensures r.Success? ==> (r.value.1.Some? <==>
      id in badges && (Apply(badges[id].data, upd) != badges[id].data || badges[id].updatedAt != now))
    ensures r.Success? && r.value.1.Some? ==>
      && badges[id].data.userId == caller
      && r.value.1.value.data == Apply(badges[id].data, upd)
      && GetById(r.value.0, id) == r.value.1
  {
    match CheckOwner(badges, id, caller)
    case Some(e) => Failure(e)
    case None =>
      if FieldsSet(upd) == {} then Failure(ValueError(NothingToUpdate))
      else Success(BaseRepository.Update(badges, id, b => Apply(b, upd), now))
  }

  /** `delete`: the owner checks, then the base delete. */
  function Delete(badges: Badges, id: Id, caller: Id): (r: Result<(Badges, bool), ServiceError>)
    ensures r.Failure? <==> CheckOwner(badges, id, caller).Some?
    ensures r.Failure? ==> r.error == CheckOwner(badges, id, caller).value
    ensures r.Success? ==> r.value == (badges - {id}, true)
  {
    match CheckOwner(badges, id, caller)
    case Some(e) => Failure(e)
    case None => Success(BaseRepository.Delete(badges, id))
  }

  /** A badge created by `owner` can be updated and deleted by `owner` and by
      no one else. */
  lemma {:induction false} OnlyCreatorMayChange(
    badges: Badges, data: BadgeData, owner: Id, other: Id, newId: Id, now: Time, upd: BadgeUpdate, later: Time)
    requires newId !in badges && other != owner
    ensures var created := Create(badges, data, owner, newId, now);
      && created.Success?
      && Update(created.value.0, newId, upd, owner, later).Success?
      && Delete(created.value.0, newId, owner).Success?
      && Update(created.value.0, newId, upd, other, later) == Failure(Http(NotOwner))
      && Delete(created.value.0, newId, other) == Failure(Http(NotOwner))
  {
    var created := Create(badges, data, owner, newId, now);
    assert created.value.0[newId].data.userId == owner;
  }

  /** Setting `user_id` hands the badge over: its previous owner is locked
      out of it. */
  lemma HandOver(badges: Badges, id: Id, owner: Id, newOwner: Id, name: Option<string>, gid: Id, now: Time)
    requires id in badges && badges[id].data.userId == owner && newOwner != owner
    requires badges[id].updatedAt < now
    ensures var r := Update(badges, id, BadgeUpdate(name, Some(newOwner), gid), owner, now);
      && r.Success? && r.value.1.Some?
      && Update(r.value.0, id, BadgeUpdate(name, None, gid), owner, now) == Failure(Http(NotOwner))
  {
  }

  /** `greenhouse_id` is required, so an update always sets a field and the
      `ValueError` branch is dead. */
  lemma EmptyUpdateUnreachable(badges: Badges, id: Id, upd: BadgeUpdate, caller: Id, now: Time)
    ensures Update(badges, id, upd, caller, now) != Failure(ValueError(NothingToUpdate))
  {
  }

  /** The query `{"user_id": owner}`. */
  function OwnerIs(owner: Id): (BadgeData -> bool) {
    (b: BadgeData) => b.userId == owner
  }

  /** The query `{"user_id": owner, "greenhouse_id": gid}`. */
  function OwnerAndGreenhouse(owner: Id, gid: Id): (BadgeData -> bool) {
    (b: BadgeData) => b.userId == owner && b.greenhouseId == gid
  }

  /** `get_by_user_id`: the first page of the badges of `owner`. */
  function ListByUser(badges: Badges, scan: seq<Id>, owner: Id): (r: seq<BadgeModel>)
    requires IsScanOrder(badges, scan)
    ensures |r| <= 100
    ensures forall i :: 0 <= i < |r| ==> r[i].data.userId == owner && GetById(badges, r[i].id) == Some(r[i])
    ensures var m := Matching(badges, scan, Some(OwnerIs(owner)));
      r == m[..LimitedCount(|m|, 100)]
  {
    FirstPage(badges, scan, Some(OwnerIs(owner)), 100);
    GetAll(badges, scan, Some(OwnerIs(owner)), 0, 100).value
  }

  /** When the badges fit on one page, every badge of `owner` is listed. */
  lemma ListByUserComplete(badges: Badges, scan: seq<Id>, owner: Id)
    requires IsScanOrder(badges, scan)
    requires |badges| <= 100
    ensures forall id :: id in badges && badges[id].data.userId == owner ==> ToDoc(id, badges[id]) in ListByUser(badges, scan, owner)
  {
    forall id | id in badges && badges[id].data.userId == owner
      ensures ToDoc(id, badges[id]) in ListByUser(badges, scan, owner)
    {
      FirstPageComplete(badges, scan, Some(OwnerIs(owner)), 100, id);
    }
  }

  /** `get_by_greenhouse_id`: the first page of the badges of `owner` for
      one greenhouse. */
  function ListByGreenhouse(badges: Badges, scan: seq<Id>, owner: Id, gid: Id): (r: seq<BadgeModel>)
    requires IsScanOrder(badges, scan)
    ensures |r| <= 100
    ensures forall i :: 0 <= i < |r| ==>
      r[i].data.userId == owner && r[i].data.greenhouseId == gid && GetById(badges, r[i].id) == Some(r[i])
    ensures var m := Matching(badges, scan, Some(OwnerAndGreenhouse(owner, gid)));
      r == m[..LimitedCount(|m|, 100)]
  {
    FirstPage(badges, scan, Some(OwnerAndGreenhouse(owner, gid)), 100);
    GetAll(badges, scan, Some(OwnerAndGreenhouse(owner, gid)), 0, 100).value
  }

  /** When the badges fit on one page, every badge of `owner` for the
      greenhouse is listed. */
  lemma ListByGreenhouseComplete(badges: Badges, scan: seq<Id>, owner: Id, gid: Id)
    requires IsScanOrder(badges, scan)
    requires |badges| <= 100
    ensures forall id :: id in badges && badges[id].data.userId == owner && badges[id].data.greenhouseId == gid ==>
      ToDoc(id, badges[id]) in ListByGreenhouse(badges, scan, owner, gid)
  {
    forall id | id in badges && badges[id].data.userId == owner && badges[id].data.greenhouseId == gid
      ensures ToDoc(id, badges[id]) in ListByGreenhouse(badges, scan, owner, gid)
    {
      FirstPageComplete(badges, scan, Some(OwnerAndGreenhouse(owner, gid)), 100, id);
    }
  }
}

=== FILE: badges_controller.dfy ===
/** The `/badges` endpoints. The owner rules live in `BadgeService`; the
    endpoints differ in how they report its refusals: reading lets an
    administrator through, and `create_badge` and `delete_badge` have no
    `except HTTPException: raise`, so every refusal they meet comes back
    as a 500. */
module BadgesController {
  import opened Wrappers
  import opened Common
  import opened BaseRepository
  import opened Services
  import opened BadgeService
  import opened JwtHandler

  const DeletedMessage := "Badge supprimé avec succès"

  /** `create_badge`: the badge is stored as the caller's; the only possible
      failure, a taken id, is a 500. */
  function Create(badges: Badges, p: Principal, data: BadgeData, newId: Id, now: Time)
    : (r: (Result<BadgeModel, HttpError>, Badges))
    ensures r.0.Failure? <==> newId in badges
    ensures r.0.Failure? ==> r.0.error.status == InternalError && r.1 == badges
    ensures r.0.Success? ==>
      && r.0.value.data == data.(userId := p.userId)
      && GetById(r.1, newId) == Some(r.0.value)
      && r.1.Keys == badges.Keys + {newId}
  {
    match BadgeService.Create(badges, data, p.userId, newId, now)
    case Failure(e) => (Failure(CatchAll(e)), badges)
    case Success((badges', b)) => (Success(b), badges')
  }

  /** `get_badge`: 404, then 403 unless the caller owns the badge or is an
      administrator. */
  function Get(badges: Badges, p: Principal, id: Id): (r: Result<BadgeModel, HttpError>)
    ensures r == Failure(BadgeNotFound) <==> id !in badges
    ensures r == Failure(NotOwner) <==> id in badges && badges[id].data.userId != p.userId && !p.isAdmin
    ensures r.Success? <==> id in badges && (badges[id].data.userId == p.userId || p.isAdmin)
    ensures r.Success? ==> r.value == ToDoc(id, badges[id])
  {
    match BaseRepository.GetById(badges, id)
    case None => Failure(BadgeNotFound)
    case Some(b) =>
      if b.data.userId != p.userId && !p.isAdmin then Failure(NotOwner) else Success(b)
  }

  /** `get_user_badges`: a caller lists their own badges; an administrator
      lists anyone's. */
  function ListByUser(badges: Badges, scan: seq<Id>, p: Principal, owner: Id): (r: Result<seq<BadgeModel>, HttpError>)
    requires IsScanOrder(badges, scan)
    ensures r.Failure? <==> owner != p.userId && !p.isAdmin
    ensures r.Failure? ==> r.error == NotOwner
    ensures r.Success? ==> r.value == BadgeService.ListByUser(badges, scan, owner)
  {
    if owner != p.userId && !p.isAdmin then Failure(NotOwner)
    else Success(BadgeService.ListByUser(badges, scan, owner))
  }

  /** `get_greenhouse_badges`: the same rule, for one greenhouse. */
  function ListByGreenhouse(badges: Badges, scan: seq<Id>, p: Principal, owner: Id, gid: Id)
    : (r: Result<seq<BadgeModel>, HttpError>)
    requires IsScanOrder(badges, scan)
    ensures r.Failure? <==> owner != p.userId && !p.isAdmin
    ensures r.Failure? ==> r.error == NotOwner
    ensures r.Success? ==> r.value == BadgeService.ListByGreenhouse(badges, scan, owner, gid)
  {
    if owner != p.userId && !p.isAdmin then Failure(NotOwner)
    else Success(BadgeService.ListByGreenhouse(badges, scan, owner, gid))
  }

  /** `update_badge`: the service's 404 and 403 pass through, and a 404 also
      reports an update that modified nothing. */
  function Update(badges: Badges, p: Principal, id: Id, upd: BadgeUpdate, now: Time)
    : (r: (Result<BadgeModel, HttpError>, Badges))
    ensures r.0 == Failure(BadgeNotFound) <==>
      id !in badges
      || (badges[id].data.userId == p.userId && Apply(badges[id].data, upd) == badges[id].data && badges[id].updatedAt == now)
    ensures r.0 == Failure(NotOwner) <==> id in badges && badges[id].data.userId != p.userId
    ensures r.0.Success? <==>
      && id in badges && badges[id].data.userId == p.userId
      && (Apply(badges[id].data, upd) != badges[id].data || badges[id].updatedAt != now)
    ensures r.0.Failure? ==> r.1 == badges
    ensures r.0.Success? ==>
      && id in badges && badges[id].data.userId == p.userId
      && r.0.value.data == Apply(badges[id].data, upd)
      && GetById(r.1, id) == Some(r.0.value)
      && AgreeExcept(badges, r.1, id)
  {
    match BadgeService.Update(badges, id, upd, p.userId, now)
    case Failure(e) => (Failure(ToHttp(e)), badges)
    case Success((badges', b)) =>
      if b.None? then (Failure(BadgeNotFound), badges') else (Success(b.value), badges')
  }

  /** `delete_badge`: the owner checks, then the delete; the catch-all turns
      the service's 404 and 403 into a 500 whose detail is the status and
      message of the refusal. */
  function Delete(badges: Badges, p: Principal, id: Id): (r: (Result<string, HttpError>, Badges))
    ensures r.0.Success? <==> id in badges && badges[id].data.userId == p.userId
    ensures r.0.Failure? ==> r.0.error.status == InternalError && r.1 == badges
    ensures id !in badges ==> r.0 == Failure(HttpError(InternalError, "404: " + BadgeNotFound.detail))
    ensures id in badges && badges[id].data.userId != p.userId ==>
      r.0 == Failure(HttpError(InternalError, "403: " + NotOwner.detail))
    ensures r.0.Success? ==> r.0.value == DeletedMessage && r.1 == badges - {id}
  {
    assert NatToString(NotFound) + ": " + BadgeNotFound.detail == "404: " + BadgeNotFound.detail;
    assert NatToString(Forbidden) + ": " + NotOwner.detail == "403: " + NotOwner.detail;
    match BadgeService.Delete(badges, id, p.userId)
    case Failure(e) => (Failure(CatchAll(e)), badges)
    case Success((badges', removed)) =>
      if !removed then (Failure(CatchAll(Http(BadgeNotFound))), badges') else (Success(DeletedMessage), badges')
  }

  /** What `get_all_badges` meets when it calls `service.get_all(skip, limit)`:
      `BadgeService` overrides `get_all` with a one-argument `get_all(id)`,
      so the call itself raises a `TypeError` with this message. */
  const GetAllArityError := "BadgeService.get_all() takes 2 positional arguments but 3 were given"

  /** `get_all_badges` as written: past the administrator check every call
      raises the `TypeError` above, which the catch-all turns into a 500.
      The query validation (`skip >= 0`, `1 <= limit <= 100`) happens before
      the handler runs. */
  function ListAll(badges: Badges, scan: seq<Id>, p: Principal, skip: int, limit: int)
    : (r: Result<seq<BadgeModel>, HttpError>)
    requires IsScanOrder(badges, scan)
    requires 0 <= skip && 1 <= limit <= 100
    ensures r.Failure?
    ensures r.error == (if p.isAdmin then HttpError(InternalError, GetAllArityError) else AdminOnlyError)
  {
    match GetCurrentAdmin(p)
    case Failure(e) => Failure(e)
    case Success(_) => Failure(HttpError(InternalError, GetAllArityError))
  }

  /** `get_all_badges` as its description intends ("all badges, administrators
      only"): the generic paged listing of the collection. */
  function ListAllIntended(badges: Badges, scan: seq<Id>, p: Principal, skip: int, limit: int)
    : (r: Result<seq<BadgeModel>, HttpError>)
    requires IsScanOrder(badges, scan)
    requires 0 <= skip && 1 <= limit <= 100
    ensures r.Failure? <==> !p.isAdmin
    ensures r.Failure? ==> r.error == AdminOnlyError
    ensures r.Success? ==>
      var m := Matching(badges, scan, None);
      && (skip >= |m| ==> r.value == [])
      && (skip < |m| ==> r.value == m[skip..skip + LimitedCount(|m| - skip, limit)])
  {
    match GetCurrentAdmin(p)
    case Failure(e) => Failure(e)
    case Success(_) => Success(GetAll(badges, scan, None, skip, limit).value)
  }

  /** The intended listing gives an administrator every badge from skip 0
      when they fit on the page. */
  lemma ListAllIntendedComplete(badges: Badges, scan: seq<Id>, p: Principal, limit: int)
    requires IsScanOrder(badges, scan) && p.isAdmin
    requires 1 <= limit <= 100 && |badges| <= limit
    ensures forall id :: id in badges ==> ToDoc(id, badges[id]) in ListAllIntended(badges, scan, p, 0, limit).value
  {
    forall id | id in badges
      ensures ToDoc(id, badges[id]) in ListAllIntended(badges, scan, p, 0, limit).value
    {
      FirstPageComplete(badges, scan, None, limit, id);
    }
  }

  /** The listing as written never returns anything: an administrator asking
      for the first page of a non-empty collection gets a 500 where the
      intended listing returns at least one badge. */
  lemma ListAllNeverLists(badges: Badges, scan: seq<Id>, p: Principal, limit: int)
    requires IsScanOrder(badges, scan) && p.isAdmin
    requires 1 <= limit <= 100 && |badges| > 0
    ensures ListAll(badges, scan, p, 0, limit).error.status == InternalError
    ensures |ListAllIntended(badges, scan, p, 0, limit).value| > 0
  {
  }

  /** An administrator may read someone else's badge but not delete it, and
      the refusal is reported as a server error rather than a 403. */
  lemma {:induction false} AdminReadsButCannotDelete(badges: Badges, p: Principal, id: Id)
    requires p.isAdmin && id in badges && badges[id].data.userId != p.userId
    ensures Get(badges, p, id).Success?
    ensures Delete(badges, p, id).0.Failure?
    ensures Delete(badges, p, id).0.error.status == InternalError
    ensures ParseNat(Delete(badges, p, id).0.error.detail[..3]) == Forbidden
  {
    var detail := Delete(badges, p, id).0.error.detail;
    assert detail[..3] == NatToString(Forbidden);
    ParseNatToString(Forbidden);
  }
}

=== FILE: base_repository.dfy ===
/** The generic keyed document store every repository builds on: one
    collection is a map from document id to the stored fields plus the two
    timestamps the repository adds. Each operation is one atomic step. */
module BaseRepository {
  import opened Wrappers
  import opened Common
  import Sequences

  /** A stored document: the caller's fields plus `created_at`/`updated_at`. */
  datatype Stored<T> = Stored(data: T, createdAt: Time, updatedAt: Time)

  type Collection<T> = map<Id, Stored<T>>

  /** A document as the repository hands it out, with `_id` exposed as `id`. */
  datatype Doc<T> = Doc(id: Id, data: T, createdAt: Time, updatedAt: Time)

  /** Errors raised by the store itself. */
  datatype StoreError =
    | DuplicateKey   // an insert collided with a unique index
    | NegativeSkip   // the cursor refuses a negative skip

  function ToDoc<T>(id: Id, s: Stored<T>): Doc<T> {
    Doc(id, s.data, s.createdAt, s.updatedAt)
  }

  /** `s` and `s'` hold the same documents under every id except `id`. */
  ghost predicate AgreeExcept<T>(s: Collection<T>, s': Collection<T>, id: Id) {
    && (forall k :: k != id ==> (k in s <==> k in s'))
    && (forall k :: k in s && k != id ==> s'[k] == s[k])
  }

  /** `scan` lists every id of the collection exactly once: the (unspecified)
      natural order in which a cursor visits the documents. */
  ghost predicate IsScanOrder<T>(store: Collection<T>, scan: seq<Id>) {
    && (forall i, j :: 0 <= i < j < |scan| ==> scan[i] != scan[j])
    && (forall k :: k in store <==> k in scan)
  }

  /** `get_by_id`: the document under `id`, or None. */
  function GetById<T>(store: Collection<T>, id: Id): (r: Option<Doc<T>>)
    ensures r.Some? <==> id in store
    ensures r.Some? ==> r.value.id == id && r.value.data == store[id].data
  {
    if id in store then Some(ToDoc(id, store[id])) else None
  }

  /** `create`: stamps both timestamps with `now` and inserts under the freshly
      generated `id`, returning the document read back by id. The id
      generator is outside the model, so the id is a parameter; an id already
      present violates the primary-key index. */
  function Create<T>(store: Collection<T>, id: Id, data: T, now: Time): (r: Result<(Collection<T>, Doc<T>), StoreError>)
    ensures r.Failure? <==> id in store
    ensures r.Failure? ==> r.error == DuplicateKey
    ensures r.Success? ==>
      && GetById(r.value.0, id) == Some(r.value.1)
      && r.value.1.data == data
      && r.value.1.createdAt == now && r.value.1.updatedAt == now
      && r.value.0.Keys == store.Keys + {id}
      && AgreeExcept(store, r.value.0, id)
  {
    if id in store then Failure(DuplicateKey)
    else
      var store' := store[id := Stored(data, now, now)];
      Success((store', ToDoc(id, store'[id])))
  }

  /** All documents, in scan order, whose fields satisfy the filter (no filter
      matches everything). */
  function Matching<T(==)>(store: Collection<T>, scan: seq<Id>, filter: Option<T -> bool>): (r: seq<Doc<T>>)
    requires forall k :: k in scan ==> k in store
    ensures forall i :: 0 <= i < |r| ==> GetById(store, r[i].id) == Some(r[i])
    ensures forall i :: 0 <= i < |r| ==> filter.None? || filter.value(r[i].data)
  {
    var docs := seq(|scan|, i requires 0 <= i < |scan| => ToDoc(scan[i], store[scan[i]]));
    match filter
    case None => docs
    case Some(f) => Sequences.Keep(docs, (d: Doc<T>) => f(d.data))
  }

  /** With no filter every document of the collection matches. */
  lemma MatchingAll<T>(store: Collection<T>, scan: seq<Id>)
    requires IsScanOrder(store, scan)
    ensures |Matching(store, scan, None)| == |store|
  {
    var ks := set i | 0 <= i < |scan| :: scan[i];
    assert ks == store.Keys;
    SeqSetSize(scan);
  }

  /** A duplicate-free sequence has as many distinct elements as entries. */
  lemma {:induction false} SeqSetSize<X>(xs: seq<X>)
    requires forall i, j :: 0 <= i < j < |xs| ==> xs[i] != xs[j]
    ensures |set i | 0 <= i < |xs| :: xs[i]| == |xs|
    decreases |xs|
  {
    if |xs| > 0 {
      var init := xs[..|xs| - 1];
      SeqSetSize(init);
      var s := set i | 0 <= i < |init| :: init[i];
      assert (set i | 0 <= i < |xs| :: xs[i]) == s + {xs[|xs| - 1]};
      assert xs[|xs| - 1] !in s;
    }
  }

  /** Every stored document the filter accepts is among the matches. */
  lemma MatchingComplete<T>(store: Collection<T>, scan: seq<Id>, filter: Option<T -> bool>, id: Id)
    requires IsScanOrder(store, scan)
    requires id in store && (filter.None? || filter.value(store[id].data))
    ensures ToDoc(id, store[id]) in Matching(store, scan, filter)
  {
    var i :| 0 <= i < |scan| && scan[i] == id;
    var docs := seq(|scan|, i requires 0 <= i < |scan| => ToDoc(scan[i], store[scan[i]]));
    assert docs[i] == ToDoc(id, store[id]);
  }

  /** There are never more matches than documents. */
  lemma MatchingBound<T>(store: Collection<T>, scan: seq<Id>, filter: Option<T -> bool>)
    requires IsScanOrder(store, scan)
    ensures |Matching(store, scan, filter)| <= |store|
  {
    MatchingAll(store, scan);
  }

  /** The number of documents a cursor with this `limit` returns at most when
      `available` remain: 0 means no limit, a negative limit means its
      absolute value (a single batch). */
  function LimitedCount(available: nat, limit: int): (n: nat)
    ensures n <= available
    ensures limit != 0 ==> n <= (if limit < 0 then -limit else limit)
    ensures n == available || (limit != 0 && n == (if limit < 0 then -limit else limit))
  {
    var cap := if limit < 0 then -limit else limit;
    if limit == 0 || available <= cap then available else cap
  }

  /** `get_all(filter, skip, limit)`: the matching documents after skipping
      the first `skip`, at most `limit` of them. */
  function GetAll<T(==)>(store: Collection<T>, scan: seq<Id>, filter: Option<T -> bool>, skip: int, limit: int)
    : (r: Result<seq<Doc<T>>, StoreError>)
    requires IsScanOrder(store, scan)
    ensures r.Failure? <==> skip < 0
    ensures r.Failure? ==> r.error == NegativeSkip
    ensures r.Success? ==>
      var m := Matching(store, scan, filter);
      && |r.value| == LimitedCount(if skip < |m| then |m| - skip else 0, limit)
      && (skip >= |m| ==> r.value == [])
      && (skip < |m| ==> r.value == m[skip..skip + |r.value|])
  {
    if skip < 0 then Failure(NegativeSkip)
    else
      var m := Matching(store, scan, filter);
      if skip >= |m| then Success([])
      else Success(m[skip..skip + LimitedCount(|m| - skip, limit)])
  }

  /** A first page as large as the collection, or an unlimited one, holds
      every match. */
  lemma GetAllWhole<T>(store: Collection<T>, scan: seq<Id>, filter: Option<T -> bool>, limit: int)
    requires IsScanOrder(store, scan)
    requires limit == 0 || |store| <= limit
    ensures GetAll(store, scan, filter, 0, limit) == Success(Matching(store, scan, filter))
  {
    MatchingBound(store, scan, filter);
    var m := Matching(store, scan, filter);
    assert LimitedCount(|m|, limit) == |m|;
    assert m[0..|m|] == m;
  }

  /** From skip 0 the page is the leading run of the matches. */
  lemma FirstPage<T>(store: Collection<T>, scan: seq<Id>, filter: Option<T -> bool>, limit: int)
    requires IsScanOrder(store, scan)
    ensures var m := Matching(store, scan, filter);
      GetAll(store, scan, filter, 0, limit) == Success(m[..LimitedCount(|m|, limit)])
  {
  }

  /** A first page the whole collection fits in holds every stored document
      the filter accepts. */
  lemma FirstPageComplete<T>(store: Collection<T>, scan: seq<Id>, filter: Option<T -> bool>, limit: int, id: Id)
    requires IsScanOrder(store, scan)
    requires limit == 0 || |store| <= limit
    requires id in store && (filter.None? || filter.value(store[id].data))
    ensures ToDoc(id, store[id]) in GetAll(store, scan, filter, 0, limit).value
  {
    GetAllWhole(store, scan, filter, limit);
    MatchingComplete(store, scan, filter, id);
  }

  /** Two filters that agree on every stored document select the same
      documents. */
  lemma MatchingCongruent<T>(store: Collection<T>, scan: seq<Id>, f: T -> bool, g: T -> bool)
    requires IsScanOrder(store, scan)
    requires forall k :: k in store ==> f(store[k].data) == g(store[k].data)
    ensures Matching(store, scan, Some(f)) == Matching(store, scan, Some(g))
  {
    var docs := seq(|scan|, i requires 0 <= i < |scan| => ToDoc(scan[i], store[scan[i]]));
    var p, q := (d: Doc<T>) => f(d.data), (d: Doc<T>) => g(d.data);
    forall i | 0 <= i < |docs|
      ensures p(docs[i]) == q(docs[i])
    {
      assert docs[i].data == store[scan[i]].data;
    }
    Sequences.KeepCongruent(docs, p, q);
  }

  /** Two filters that agree on every stored document select the same page. */
  lemma GetAllCongruent<T>(store: Collection<T>, scan: seq<Id>, f: T -> bool, g: T -> bool, skip: int, limit: int)
    requires IsScanOrder(store, scan)
    requires forall k :: k in store ==> f(store[k].data) == g(store[k].data)
    ensures GetAll(store, scan, Some(f), skip, limit) == GetAll(store, scan, Some(g), skip, limit)
  {
    MatchingCongruent(store, scan, f, g);
  }

  /** `update`: applies the `$set` (modelled as `patch`) and stamps
      `updated_at`; returns the updated document, or None when the store
      reports that nothing was modified. */
  function Update<T(==)>(store: Collection<T>, id: Id, patch: T -> T, now: Time): (r: (Collection<T>, Option<Doc<T>>))
    ensures r.1.None? ==> r.0 == store
    ensures r.1.Some? <==> id in store && (patch(store[id].data) != store[id].data || store[id].updatedAt != now)
    ensures r.1.Some? ==>
      && id in store
      && GetById(r.0, id) == r.1
      && r.1.value.data == patch(store[id].data)
      && r.1.value.createdAt == store[id].createdAt
      && r.1.value.updatedAt == now
    ensures AgreeExcept(store, r.0, id)
    ensures r.0.Keys == store.Keys
  {
    if id !in store then (store, None)
    else
      var old_ := store[id];
      var new_ := Stored(patch(old_.data), old_.createdAt, now);
      if new_ == old_ then (store, None)
      else (store[id := new_], Some(ToDoc(id, new_)))
  }

  /** With an advancing clock every update of a present document modifies
      it, so None means exactly that the id is absent. */
  lemma UpdateNoneIffAbsent<T>(store: Collection<T>, id: Id, patch: T -> T, now: Time)
    requires id in store ==> store[id].updatedAt < now
    ensures Update(store, id, patch, now).1.None? <==> id !in store
  {
  }

  /** `delete`: removes the document under `id`; true iff one was removed. */
  function Delete<T>(store: Collection<T>, id: Id): (r: (Collection<T>, bool))
    ensures r.1 <==> id in store
    ensures r.0.Keys == store.Keys - {id}
    ensures GetById(r.0, id).None?
    ensures AgreeExcept(store, r.0, id)
  {
    (store - {id}, id in store)
  }

  /** Creating then reading back by id returns exactly the created document;
      deleting it afterwards restores the original collection. */
  lemma CreateDeleteRoundTrip<T>(store: Collection<T>, id: Id, data: T, now: Time)
    requires id !in store
    ensures Create(store, id, data, now).Success?
    ensures Delete(Create(store, id, data, now).value.0, id) == (store, true)
  {
    var s' := Create(store, id, data, now).value.0;
    assert s' - {id} == store;
  }
}

=== FILE: common.dfy ===
/** Vocabulary shared by every layer: identifiers, clock readings and the
    HTTP errors that the controllers and the authentication layer raise. */
module Common {

  /** Document identifiers (the string form of a MongoDB ObjectId) and user ids. */
  type Id = string

  /** A clock reading, in whole seconds. The source reads the clock with
      `get_local_time()`; here the reading is always passed in as `now`. */
  type Time = int

  /** An `HTTPException(status_code, detail)`. */
  datatype HttpError = HttpError(status: int, detail: string)

  const BadRequest := 400
  const Unauthorized := 401
  const Forbidden := 403
  const NotFound := 404
  const InternalError := 500
}

=== FILE: crypto.dfy ===
/** Symbolic models of the two cryptographic collaborators: bcrypt password
    hashing and signed JWTs. Neither algorithm is modelled; each is reduced
    to the only facts the rest of the system relies on. */
module Crypto {
  import opened Wrappers
  import opened Common

  // ---------------------------------------------------------------------
  // Password hashing (bcrypt through a CryptContext)
  // ---------------------------------------------------------------------

  /** A stored password digest. A bcrypt digest is a one-way term over the
      plaintext and a random salt; any other string is one the hashing
      context cannot identify. */
  datatype Digest = Bcrypt(salt: nat, secret: string) | Unrecognized(raw: string)

  /** Raised by `verify` on a digest it cannot identify. */
  datatype CryptoError = UnknownHash

  /** `hash_password`: salted, so two hashes of one password differ when
      their salts do. The salt source is outside the model. */
  function Hash(password: string, salt: nat): (d: Digest)
    ensures d.Bcrypt?
  {
    Bcrypt(salt, password)
  }

  /** `pwd_context.verify`: whether `password` is the one `digest` was made
      from; raises on a digest it cannot identify. */
  function Verify(password: string, digest: Digest): (r: Result<bool, CryptoError>)
    ensures r.Failure? <==> digest.Unrecognized?
  {
    match digest
    case Unrecognized(_) => Failure(UnknownHash)
    case Bcrypt(_, secret) => Success(secret == password)
  }

  /** A hash verifies against exactly the password it was made from,
      whatever the salt. */
  lemma VerifyHash(password: string, candidate: string, salt: nat)
    ensures Verify(candidate, Hash(password, salt)) == Success(candidate == password)
  {
  }

  /** Hashing is not deterministic: different salts give different digests. */
  lemma HashIsSalted(password: string, s1: nat, s2: nat)
    requires s1 != s2
    ensures Hash(password, s1) != Hash(password, s2)
  {
  }

  // ---------------------------------------------------------------------
  // JSON Web Tokens (RFC 7519, HS256 through python-jose)
  // ---------------------------------------------------------------------

  /** The claim set of a token. Every claim may be absent from a token the
      server did not mint; `exp` (section 4.1.4 of RFC 7519) and
      `last_activity` are instants in seconds. */
  datatype Claims = Claims(
    sub: Option<string>,
    sessionId: Option<string>,
    isAdmin: Option<bool>,
    exp: Option<Time>,
    lastActivity: Option<Time>)

  /** A bearer credential as received: signed with the server secret, carrying
      a signature that does not verify (forged or tampered), or not a JWT at
      all. */
  datatype Token = Signed(claims: Claims) | BadSignature(claims: Claims) | Malformed(raw: string)

  /** The `JWTError` family raised by `jwt.decode`. */
  datatype JwtError = InvalidSignature | ExpiredSignature | DecodeError

  /** `jwt.encode` with the server secret. */
  function Encode(claims: Claims): Token {
    Signed(claims)
  }

  /** The token is expired at `now`: python-jose rejects a token whose `exp`
      lies strictly before the current time (no leeway). */
  predicate Expired(claims: Claims, now: Time) {
    claims.exp.Some? && claims.exp.value < now
  }

  /** `jwt.decode`: verifies the signature, then the `exp` claim. */
  function Decode(token: Token, now: Time): (r: Result<Claims, JwtError>)
    ensures r.Success? <==> token.Signed? && !Expired(token.claims, now)
    ensures r.Success? ==> r.value == token.claims
  {
    match token
    case Malformed(_) => Failure(DecodeError)
    case BadSignature(_) => Failure(InvalidSignature)
    case Signed(claims) => if Expired(claims, now) then Failure(ExpiredSignature) else Success(claims)
  }

  /** Round trip: a token the server encodes decodes back to the same claims
      until its expiry, and fails from then on. */
  lemma DecodeEncode(claims: Claims, now: Time)
    ensures Decode(Encode(claims), now) == (if Expired(claims, now) then Failure(ExpiredSignature) else Success(claims))
  {
  }
}

=== FILE: greenhouse_controller.dfy ===
/** The `/greenhouses` endpoints: who may see and change which greenhouse.
    Each endpoint receives the principal `get_current_user` produced. */
module GreenhouseController {
  import opened Wrappers
  import opened Common
  import opened BaseRepository
  import opened Services
  import Sequences
  import UserService
  import opened GreenhouseService
  import opened JwtHandler

  const GreenhouseNotFound := HttpError(NotFound, "Serre non trouvée")
  const GreenhouseForbidden := HttpError(Forbidden, "Accès non autorisé à cette serre")
  const CreateForOther := HttpError(Forbidden, "Vous ne pouvez créer une serre que pour votre propre utilisateur")
  const UserListForbidden := HttpError(Forbidden, "Accès non autorisé aux serres de cet utilisateur")
  const DeletedMessage := "Serre supprimée avec succès"

  /** The services' default page size: `skip = 0`, `limit = 100`. */
  const DefaultLimit := 100

  /** The access rule every read and write of a greenhouse applies: the
      caller owns it, or the caller is an administrator. */
  predicate OwnerOrAdmin(p: Principal, owner: Id) {
    owner == p.userId || p.isAdmin
  }

  /** The greenhouses `owner` owns, as a document filter. */
  function OwnedBy(owner: Id): (GreenhouseModel -> bool) {
    (g: GreenhouseModel) => g.data.userId == owner
  }

  /** `create_greenhouse`: a caller may create a greenhouse only for
      themselves; administrators get no exception. */
  function Create(ghs: Greenhouses, users: UserService.Users, p: Principal, data: GreenhouseData, newId: Id, now: Time)
    : (r: (Result<GreenhouseModel, HttpError>, Greenhouses))
    ensures r.0 == Failure(CreateForOther) <==> data.userId != p.userId
    ensures r.0 == Failure(UserNotFound) <==> data.userId == p.userId && data.userId !in users
    ensures r.0.Success? <==> data.userId == p.userId && data.userId in users && newId !in ghs
    ensures r.0.Failure? ==> r.1 == ghs
    ensures r.0.Success? ==>
      && data.userId == p.userId && data.userId in users && newId !in ghs
      && r.0.value.data == data
      && r.1.Keys == ghs.Keys + {newId}
      && GetById(r.1, newId) == Some(r.0.value)
  {
    if data.userId != p.userId then (Failure(CreateForOther), ghs)
    else
      match GreenhouseService.Create(ghs, users, data, newId, now)
      case Failure(e) => (Failure(ToHttp(e)), ghs)
      case Success((ghs', g)) => (Success(g), ghs')
  }

  /** The existence-then-ownership check shared by get, update and delete. */
  function Authorize(ghs: Greenhouses, p: Principal, id: Id): (r: Result<GreenhouseModel, HttpError>)
    ensures r == Failure(GreenhouseNotFound) <==> id !in ghs
    ensures r == Failure(GreenhouseForbidden) <==> id in ghs && !OwnerOrAdmin(p, ghs[id].data.userId)
    ensures r.Success? ==> GetById(ghs, id) == Some(r.value) && OwnerOrAdmin(p, r.value.data.userId)
  {
    match BaseRepository.GetById(ghs, id)
    case None => Failure(GreenhouseNotFound)
    case Some(g) =>
      if g.data.userId != p.userId && !p.isAdmin then Failure(GreenhouseForbidden) else Success(g)
  }

  /** `get_greenhouse`. */
  function Get(ghs: Greenhouses, p: Principal, id: Id): (r: Result<GreenhouseModel, HttpError>)
    ensures r.Success? <==> id in ghs && OwnerOrAdmin(p, ghs[id].data.userId)
    ensures r.Failure? ==> r.error == (if id !in ghs then GreenhouseNotFound else GreenhouseForbidden)
    ensures r.Success? ==> r.value == ToDoc(id, ghs[id])
  {
    Authorize(ghs, p, id)
  }

  /** `get_greenhouses_by_user`: a caller lists their own greenhouses; an
      administrator lists anyone's. At most one page is returned. */
  function ListByUser(ghs: Greenhouses, scan: seq<Id>, p: Principal, owner: Id)
    : (r: Result<seq<GreenhouseModel>, HttpError>)
    requires IsScanOrder(ghs, scan)
    ensures r.Failure? <==> !OwnerOrAdmin(p, owner)
    ensures r.Failure? ==> r.error == UserListForbidden
    ensures r.Success? ==>
      && |r.value| <= DefaultLimit
      && (forall i :: 0 <= i < |r.value| ==> r.value[i].data.userId == owner && GetById(ghs, r.value[i].id) == Some(r.value[i]))
    ensures r.Success? ==>
      var m := Matching(ghs, scan, Some(OwnerIs(owner)));
      r.value == m[..LimitedCount(|m|, DefaultLimit)]
  {
    if owner != p.userId && !p.isAdmin then Failure(UserListForbidden)
    else
      FirstPage(ghs, scan, Some(OwnerIs(owner)), DefaultLimit);
      Success(GetAll(ghs, scan, Some(OwnerIs(owner)), 0, DefaultLimit).value)
  }

  /** When the collection fits on one page, a permitted caller sees every
      greenhouse of `owner`. */
  lemma ListByUserComplete(ghs: Greenhouses, scan: seq<Id>, p: Principal, owner: Id)
    requires IsScanOrder(ghs, scan) && OwnerOrAdmin(p, owner)
    requires |ghs| <= DefaultLimit
    ensures forall id :: id in ghs && ghs[id].data.userId == owner ==> ToDoc(id, ghs[id]) in ListByUser(ghs, scan, p, owner).value
  {
    forall id | id in ghs && ghs[id].data.userId == owner
      ensures ToDoc(id, ghs[id]) in ListByUser(ghs, scan, p, owner).value
    {
      FirstPageComplete(ghs, scan, Some(OwnerIs(owner)), DefaultLimit, id);
    }
  }

  /** The query `{"name": {"$regex": query, "$options": "i"}}`, with the
      pattern's verdict as a parameter. */
  function NameIs(nameMatches: string -> bool): (GreenhouseData -> bool) {
    (g: GreenhouseData) => nameMatches(g.name)
  }

  /** The page `search_by_name` fetches: greenhouses whose name the
      database's case-insensitive pattern `nameMatches` accepts. */
  function SearchPage(ghs: Greenhouses, scan: seq<Id>, nameMatches: string -> bool, skip: nat, limit: nat)
    : (r: seq<GreenhouseModel>)
    requires IsScanOrder(ghs, scan)
    ensures limit > 0 ==> |r| <= limit
    ensures forall i :: 0 <= i < |r| ==> nameMatches(r[i].data.name) && GetById(ghs, r[i].id) == Some(r[i])
    ensures var m := Matching(ghs, scan, Some(NameIs(nameMatches)));
      && (skip >= |m| ==> r == [])
      && (skip < |m| ==> r == m[skip..skip + LimitedCount(|m| - skip, limit)])
  {
    GetAll(ghs, scan, Some(NameIs(nameMatches)), skip, limit).value
  }

  /** The first page holds every greenhouse whose name matches when the
      collection fits on it. */
  lemma SearchPageComplete(ghs: Greenhouses, scan: seq<Id>, nameMatches: string -> bool, limit: nat)
    requires IsScanOrder(ghs, scan)
    requires limit == 0 || |ghs| <= limit
    ensures forall id :: id in ghs && nameMatches(ghs[id].data.name) ==> ToDoc(id, ghs[id]) in SearchPage(ghs, scan, nameMatches, 0, limit)
  {
    forall id | id in ghs && nameMatches(ghs[id].data.name)
      ensures ToDoc(id, ghs[id]) in SearchPage(ghs, scan, nameMatches, 0, limit)
    {
      FirstPageComplete(ghs, scan, Some(NameIs(nameMatches)), limit, id);
    }
  }

  /** `search_greenhouses`: administrators get the page unfiltered; anyone
      else gets, in the same order, exactly the greenhouses of the page they
      own. The query validation (`skip >= 0`, `1 <= limit <= 100`) happens
      before the handler runs. */
  function Search(ghs: Greenhouses, scan: seq<Id>, p: Principal, nameMatches: string -> bool, skip: int, limit: int)
    : (r: seq<GreenhouseModel>)
    requires IsScanOrder(ghs, scan)
    requires 0 <= skip && 1 <= limit <= 100
    ensures var page := SearchPage(ghs, scan, nameMatches, skip, limit);
      && Sequences.IsSubsequence(r, page)
      && (forall i :: 0 <= i < |r| ==> OwnerOrAdmin(p, r[i].data.userId))
      && (forall i :: 0 <= i < |page| && OwnerOrAdmin(p, page[i].data.userId) ==> page[i] in r)
      && (p.isAdmin ==> r == page)
  {
    var page := SearchPage(ghs, scan, nameMatches, skip, limit);
    if !p.isAdmin then Sequences.Keep(page, OwnedBy(p.userId))
    else
      Sequences.SubsequenceReflexive(page);
      page
  }

  /** `get_all_greenhouses`: administrators only. */
  function ListAll(ghs: Greenhouses, scan: seq<Id>, p: Principal): (r: Result<seq<GreenhouseModel>, HttpError>)
    requires IsScanOrder(ghs, scan)
    ensures r.Failure? <==> !p.isAdmin
    ensures r.Failure? ==> r.error == AdminOnlyError
    ensures r.Success? ==> |r.value| == (if |ghs| < DefaultLimit then |ghs| else DefaultLimit)
    ensures r.Success? ==>
      var m := Matching(ghs, scan, None);
      r.value == m[..LimitedCount(|m|, DefaultLimit)]
  {
    if !p.isAdmin then Failure(AdminOnlyError)
    else
      MatchingAll(ghs, scan);
      FirstPage(ghs, scan, None, DefaultLimit);
      Success(GetAll(ghs, scan, None, 0, DefaultLimit).value)
  }

  /** An administrator sees every greenhouse when they fit on one page. */
  lemma ListAllComplete(ghs: Greenhouses, scan: seq<Id>, p: Principal)
    requires IsScanOrder(ghs, scan) && p.isAdmin
    requires |ghs| <= DefaultLimit
    ensures forall id :: id in ghs ==> ToDoc(id, ghs[id]) in ListAll(ghs, scan, p).value
  {
    forall id | id in ghs
      ensures ToDoc(id, ghs[id]) in ListAll(ghs, scan, p).value
    {
      FirstPageComplete(ghs, scan, None, DefaultLimit, id);
    }
  }

  /** `update_greenhouse`: 404 before 403; an update that sets nothing is
      the service's `ValueError`, a 500; 404 again when the store reports
      nothing modified. */
  function Update(ghs: Greenhouses, p: Principal, id: Id, upd: GreenhouseUpdate, now: Time)
    : (r: (Result<GreenhouseModel, HttpError>, Greenhouses))
    ensures r.0 == Failure(GreenhouseNotFound) <==>
      id !in ghs || (OwnerOrAdmin(p, ghs[id].data.userId) && !NoFieldSet(upd) && Apply(ghs[id].data, upd) == ghs[id].data && ghs[id].updatedAt == now)
    ensures r.0 == Failure(GreenhouseForbidden) <==> id in ghs && !OwnerOrAdmin(p, ghs[id].data.userId)
    ensures r.0 == Failure(HttpError(InternalError, GreenhouseService.NothingToUpdate)) <==>
      id in ghs && OwnerOrAdmin(p, ghs[id].data.userId) && NoFieldSet(upd)
    ensures r.0.Success? <==>
      && id in ghs && OwnerOrAdmin(p, ghs[id].data.userId) && !NoFieldSet(upd)
      && (Apply(ghs[id].data, upd) != ghs[id].data || ghs[id].updatedAt != now)
    ensures r.0.Failure? ==> r.1 == ghs
    ensures r.0.Success? ==>
      && id in ghs
      && r.0.value.data == Apply(ghs[id].data, upd)
      && r.0.value.data.userId == ghs[id].data.userId
      && r.0.value.updatedAt == now
      && GetById(r.1, id) == Some(r.0.value)
      && AgreeExcept(ghs, r.1, id)
  {
    match Authorize(ghs, p, id)
    case Failure(e) => (Failure(e), ghs)
    case Success(_) =>
      match GreenhouseService.Update(ghs, id, upd, now)
      case Failure(e) => (Failure(ToHttp(e)), ghs)
      case Success((ghs', g)) =>
        if g.None? then (Failure(GreenhouseNotFound), ghs') else (Success(g.value), ghs')
  }

  /** `delete_greenhouse`: 404 before 403; the greenhouse alone is removed. */
  function Delete(ghs: Greenhouses, p: Principal, id: Id): (r: (Result<string, HttpError>, Greenhouses))
    ensures r.0 == Failure(GreenhouseNotFound) <==> id !in ghs
    ensures r.0 == Failure(GreenhouseForbidden) <==> id in ghs && !OwnerOrAdmin(p, ghs[id].data.userId)
    ensures r.0.Success? <==> id in ghs && OwnerOrAdmin(p, ghs[id].data.userId)
    ensures r.0.Failure? ==> r.1 == ghs
    ensures r.0.Success? ==> r.0.value == DeletedMessage && r.1 == ghs - {id}
  {
    match Authorize(ghs, p, id)
    case Failure(e) => (Failure(e), ghs)
    case Success(_) =>
      var (ghs', removed) := BaseRepository.Delete(ghs, id);
      if !removed then (Failure(GreenhouseNotFound), ghs') else (Success(DeletedMessage), ghs')
  }

  /** Get, update and delete apply one access rule: on a stored greenhouse
      each refuses with 403 exactly when the caller is neither its owner nor
      an administrator. */
  lemma AccessIsUniform(ghs: Greenhouses, p: Principal, id: Id, upd: GreenhouseUpdate, now: Time)
    requires id in ghs
    ensures var denied := !OwnerOrAdmin(p, ghs[id].data.userId);
      && (Get(ghs, p, id) == Failure(GreenhouseForbidden) <==> denied)
      && (Update(ghs, p, id, upd, now).0 == Failure(GreenhouseForbidden) <==> denied)
      && (Delete(ghs, p, id).0 == Failure(GreenhouseForbidden) <==> denied)
  {
  }

  /** A caller that may update a greenhouse reads the update back. */
  lemma UpdateThenGet(ghs: Greenhouses, p: Principal, id: Id, upd: GreenhouseUpdate, now: Time)
    requires Update(ghs, p, id, upd, now).0.Success?
    ensures var (r, ghs') := Update(ghs, p, id, upd, now);
      Get(ghs', p, id) == Success(r.value)
  {
  }
}

=== FILE: greenhouse_service.dfy ===
/** `GreenhouseService`: greenhouse records, the owner check on creation and
    the empty-update rule. */
module GreenhouseService {
  import opened Wrappers
  import opened Common
  import opened BaseRepository
  import opened Services
  import UserService

  /** The stored fields of a greenhouse. The sensor readings and alert
      thresholds are carried opaquely, by field name. */
  datatype GreenhouseData = GreenhouseData(
    name: string,
    description: Option<string>,
    userId: Id,
    readings: map<string, real>,
    isActive: bool)

  type Greenhouses = Collection<GreenhouseData>

  type GreenhouseModel = Doc<GreenhouseData>

  /** `GreenhouseUpdate`: every field optional; `readings` holds only the
      readings and thresholds the caller set. There is no `user_id`: the
      owner of a greenhouse cannot be changed. */
  datatype GreenhouseUpdate = GreenhouseUpdate(
    name: Option<string>,
    description: Option<string>,
    readings: map<string, real>,
    isActive: Option<bool>)

  /** The query `{"user_id": owner}`. */
  function OwnerIs(owner: Id): (GreenhouseData -> bool) {
    (g: GreenhouseData) => g.userId == owner
  }

  const UserNotFound := HttpError(BadRequest, "Utilisateur non trouvé")
  const NothingToUpdate := "Aucune donnée à mettre à jour"

  /** `create`: the owner must be a stored user (400 otherwise). */
  function Create(ghs: Greenhouses, users: UserService.Users, data: GreenhouseData, newId: Id, now: Time)
    : (r: Result<(Greenhouses, GreenhouseModel), ServiceError>)
    ensures r == Failure(Http(UserNotFound)) <==> data.userId !in users
    ensures r.Failure? ==> r == Failure(Http(UserNotFound)) || r == Failure(Store(DuplicateKey))
    ensures r.Success? <==> data.userId in users && newId !in ghs
    ensures r.Success? ==>
      && data.userId in users
      && r.value.1.id == newId && r.value.1.data == data && r.value.1.createdAt == now
      && GetById(r.value.0, newId) == Some(r.value.1)
      && r.value.0.Keys == ghs.Keys + {newId}
      && AgreeExcept(ghs, r.value.0, newId)
  {
    if UserService.GetById(users, data.userId).None? then Failure(Http(UserNotFound))
    else
      match BaseRepository.Create(ghs, newId, data, now)
      case Failure(e) => Failure(Store(e))
      case Success(res) => Success(res)
  }

  /** The fields an update sets. */
  function Apply(g: GreenhouseData, upd: GreenhouseUpdate): GreenhouseData {
    g.(name := if upd.name.Some? then upd.name.value else g.name,
       description := if upd.description.Some? then upd.description else g.description,
       readings := g.readings + upd.readings,
       isActive := if upd.isActive.Some? then upd.isActive.value else g.isActive)
  }

  /** `model_dump(exclude_unset=True)` is empty. */
  predicate NoFieldSet(upd: GreenhouseUpdate) {
    upd.name.None? && upd.description.None? && upd.readings == map[] && upd.isActive.None?
  }

  /** `update`: an update that sets nothing is a `ValueError` and writes
      nothing; otherwise the base update. */
  function Update(ghs: Greenhouses, id: Id, upd: GreenhouseUpdate, now: Time)
    : (r: Result<(Greenhouses, Option<GreenhouseModel>), ServiceError>)
    ensures r.Failure? <==> NoFieldSet(upd)
    ensures r.Failure? ==> r.error == ValueError(NothingToUpdate)
    ensures r.Success? ==> AgreeExcept(ghs, r.value.0, id) && r.value.0.Keys == ghs.Keys
    ensures r.Success? && r.value.1.None? ==> r.value.0 == ghs
    ensures r.Success? ==> (r.value.1.Some? <==>
      id in ghs && (Apply(ghs[id].data, upd) != ghs[id].data || ghs[id].updatedAt != now))
    ensures r.Success? && r.value.1.Some? ==>
      && id in ghs
      && r.value.1.value.data == Apply(ghs[id].data, upd)
      && r.value.1.value.data.userId == ghs[id].data.userId
      && GetById(r.value.0, id) == r.value.1
  {
    if NoFieldSet(upd) then Failure(ValueError(NothingToUpdate))
    else Success(BaseRepository.Update(ghs, id, g => Apply(g, upd), now))
  }
}

=== FILE: history_repository.dfy ===
/** The `history` collection: sensor readings per greenhouse, and the
    query documents its two lookups build. A query document is modelled as
    a map from field name to a condition, with the meaning the database
    gives it. */
module HistoryRepository {
  import opened Wrappers
  import opened Common
  import opened BaseRepository

  /** A stored reading. `recorded_at` is absent unless the writer set it;
      the other sensor values are carried opaquely, by field name. */
  datatype HistoryData = HistoryData(
    greenhouseId: Id,
    recordedAt: Option<Time>,
    temperature: Option<real>,
    others: map<string, real>)

  type History = Collection<HistoryData>

  type HistoryModel = Doc<HistoryData>

  /** The values a query compares against: strings, dates and numbers. */
  datatype Value = Text(text: string) | Instant(time: Time) | Number(number: real)

  /** One field's condition: plain equality, or an operator document with
      optional `$gte` and `$lte`. */
  datatype Condition = Equals(value: Value) | Range(gte: Option<Value>, lte: Option<Value>)

  type Filter = map<string, Condition>

  /** The value a stored reading holds under a field name, if any. */
  function FieldValue(h: HistoryData, name: string): Option<Value> {
    if name == "greenhouse_id" then Some(Text(h.greenhouseId))
    else if name == "recorded_at" then (if h.recordedAt.Some? then Some(Instant(h.recordedAt.value)) else None)
    else if name == "temperature" then (if h.temperature.Some? then Some(Number(h.temperature.value)) else None)
    else if name in h.others then Some(Number(h.others[name]))
    else None
  }

  /** String order: lexicographic by character. */
  predicate TextLe(a: string, b: string)
    decreases |a|
  {
    |a| == 0 || (|b| > 0 && (a[0] < b[0] || (a[0] == b[0] && TextLe(a[1..], b[1..]))))
  }

  /** Comparison operators only relate values of the same kind. */
  predicate LessEq(a: Value, b: Value) {
    match (a, b)
    case (Text(x), Text(y)) => TextLe(x, y)
    case (Instant(x), Instant(y)) => x <= y
    case (Number(x), Number(y)) => x <= y
    case _ => false
  }

  /** Whether a field value satisfies a condition. A missing field satisfies
      no comparison; an operator document with no operator is an equality
      test against an empty document, which no value here passes. */
  predicate Satisfies(v: Option<Value>, c: Condition) {
    match c
    case Equals(x) => v == Some(x)
    case Range(gte, lte) =>
      && (gte.Some? || lte.Some?)
      && v.Some?
      && (gte.Some? ==> LessEq(gte.value, v.value))
      && (lte.Some? ==> LessEq(v.value, lte.value))
  }

  /** A reading matches a query when it satisfies every field's condition. */
  predicate Matches(f: Filter, h: HistoryData) {
    forall name :: name in f ==> Satisfies(FieldValue(h, name), f[name])
  }

  function MatchesFilter(f: Filter): (HistoryData -> bool) {
    (h: HistoryData) => Matches(f, h)
  }

  /** `filter_query[key] = filter_query.get(key, {})` followed by setting
      one operator in it. */
  function SetBound(f: Filter, key: string, lower: bool, v: Value): (r: Filter)
    ensures r.Keys == f.Keys + {key}
    ensures forall k :: k in f && k != key ==> r[k] == f[k]
    ensures r[key].Range?
    ensures lower ==> r[key].gte == Some(v)
    ensures !lower ==> r[key].lte == Some(v)
    ensures key in f && f[key].Range? ==>
      (if lower then r[key].lte == f[key].lte else r[key].gte == f[key].gte)
    ensures !(key in f && f[key].Range?) ==> (if lower then r[key].lte.None? else r[key].gte.None?)
  {
    var c := if key in f && f[key].Range? then f[key] else Range(None, None);
    f[key := if lower then c.(gte := Some(v)) else c.(lte := Some(v))]
  }

  /** The query document `search` builds, step by step as the source does:
      the dates are tested for truthiness (a date is always truthy), the
      temperatures with `is not None`. */
  function SearchFilter(gid: Id, start: Option<Time>, end: Option<Time>, tmin: Option<real>, tmax: Option<real>)
    : (f: Filter)
    ensures f.Keys <= {"greenhouse_id", "recorded_at", "temperature"}
    ensures "greenhouse_id" in f && f["greenhouse_id"] == Equals(Text(gid))
    ensures "recorded_at" in f <==> start.Some? || end.Some?
    ensures "recorded_at" in f ==>
      && f["recorded_at"].Range?
      && (f["recorded_at"].gte.Some? <==> start.Some?)
      && (f["recorded_at"].lte.Some? <==> end.Some?)
      && (start.Some? ==> f["recorded_at"].gte == Some(Instant(start.value)))
      && (end.Some? ==> f["recorded_at"].lte == Some(Instant(end.value)))
    ensures "temperature" in f <==> tmin.Some? || tmax.Some?
    ensures "temperature" in f ==>
      && f["temperature"].Range?
      && (f["temperature"].gte.Some? <==> tmin.Some?)
      && (f["temperature"].lte.Some? <==> tmax.Some?)
      && (tmin.Some? ==> f["temperature"].gte == Some(Number(tmin.value)))
      && (tmax.Some? ==> f["temperature"].lte == Some(Number(tmax.value)))
  {
    var f0 := map["greenhouse_id" := Equals(Text(gid))];
    var f1 := if start.Some? || end.Some? then f0["recorded_at" := Range(None, None)] else f0;
    var f2 := if start.Some? then SetBound(f1, "recorded_at", true, Instant(start.value)) else f1;
    var f3 := if end.Some? then SetBound(f2, "recorded_at", false, Instant(end.value)) else f2;
    var f4 := if tmin.Some? then SetBound(f3, "temperature", true, Number(tmin.value)) else f3;
    if tmax.Some? then SetBound(f4, "temperature", false, Number(tmax.value)) else f4
  }

  /** The readings a search asks for, stated directly: the greenhouse's
      readings within the date window and the temperature window, each bound
      inclusive and each optional. A bound on a field demands the field. */
  predicate InWindow(gid: Id, start: Option<Time>, end: Option<Time>, tmin: Option<real>, tmax: Option<real>, h: HistoryData) {
    && h.greenhouseId == gid
    && ((start.Some? || end.Some?) ==> h.recordedAt.Some?)
    && (start.Some? ==> start.value <= h.recordedAt.value)
    && (end.Some? ==> h.recordedAt.value <= end.value)
    && ((tmin.Some? || tmax.Some?) ==> h.temperature.Some?)
    && (tmin.Some? ==> tmin.value <= h.temperature.value)
    && (tmax.Some? ==> h.temperature.value <= tmax.value)
  }

  function InWindowFilter(gid: Id, start: Option<Time>, end: Option<Time>, tmin: Option<real>, tmax: Option<real>)
    : (HistoryData -> bool)
  {
    (h: HistoryData) => InWindow(gid, start, end, tmin, tmax, h)
  }

  /** The query document means exactly the window. */
  lemma SearchFilterMeaning(gid: Id, start: Option<Time>, end: Option<Time>, tmin: Option<real>, tmax: Option<real>, h: HistoryData)
    ensures Matches(SearchFilter(gid, start, end, tmin, tmax), h) <==> InWindow(gid, start, end, tmin, tmax, h)
  {
    var f := SearchFilter(gid, start, end, tmin, tmax);
    if Matches(f, h) {
      assert Satisfies(FieldValue(h, "greenhouse_id"), f["greenhouse_id"]);
      if "recorded_at" in f {
        assert Satisfies(FieldValue(h, "recorded_at"), f["recorded_at"]);
      }
      if "temperature" in f {
        assert Satisfies(FieldValue(h, "temperature"), f["temperature"]);
      }
    }
  }

  /** `search`: the filter is built and `skip`/`limit` are handed to
      `get_all` unchanged; the page holds exactly the readings of the
      window, in scan order. */
  function Search(store: History, scan: seq<Id>, gid: Id, start: Option<Time>, end: Option<Time>,
                  tmin: Option<real>, tmax: Option<real>, skip: int, limit: int)
    : (r: Result<seq<HistoryModel>, StoreError>)
    requires IsScanOrder(store, scan)
    ensures r == GetAll(store, scan, Some(InWindowFilter(gid, start, end, tmin, tmax)), skip, limit)
  {
    var f := SearchFilter(gid, start, end, tmin, tmax);
    forall k | k in store
      ensures MatchesFilter(f)(store[k].data) == InWindowFilter(gid, start, end, tmin, tmax)(store[k].data)
    {
      SearchFilterMeaning(gid, start, end, tmin, tmax, store[k].data);
    }
    GetAllCongruent(store, scan, MatchesFilter(f), InWindowFilter(gid, start, end, tmin, tmax), skip, limit);
    GetAll(store, scan, Some(MatchesFilter(f)), skip, limit)
  }

  /** A reading stored without `recorded_at` never appears in a
      date-bounded search. */
  lemma UndatedNeverInRange(gid: Id, start: Option<Time>, end: Option<Time>, tmin: Option<real>, tmax: Option<real>, h: HistoryData)
    requires h.recordedAt.None? && (start.Some? || end.Some?)
    ensures !Matches(SearchFilter(gid, start, end, tmin, tmax), h)
  {
    SearchFilterMeaning(gid, start, end, tmin, tmax, h);
  }

  /** The query document of `get_by_greenhouse_id`. */
  function GreenhouseFilter(gid: Id): (f: Filter)
    ensures f.Keys == {"greenhouse_id"} && f["greenhouse_id"] == Equals(Text(gid))
  {
    map["greenhouse_id" := Equals(Text(gid))]
  }

  function OfGreenhouse(gid: Id): (HistoryData -> bool) {
    (h: HistoryData) => h.greenhouseId == gid
  }

  /** `get_by_greenhouse_id`: the greenhouse's readings, `skip`/`limit`
      handed on unchanged. */
  function GetByGreenhouseId(store: History, scan: seq<Id>, gid: Id, skip: int, limit: int)
    : (r: Result<seq<HistoryModel>, StoreError>)
    requires IsScanOrder(store, scan)
    ensures r == GetAll(store, scan, Some(OfGreenhouse(gid)), skip, limit)
  {
    var f := GreenhouseFilter(gid);
    forall k | k in store
      ensures MatchesFilter(f)(store[k].data) == OfGreenhouse(gid)(store[k].data)
    {
      assert Satisfies(FieldValue(store[k].data, "greenhouse_id"), f["greenhouse_id"]) <==> store[k].data.greenhouseId == gid;
    }
    GetAllCongruent(store, scan, MatchesFilter(f), OfGreenhouse(gid), skip, limit);
    GetAll(store, scan, Some(MatchesFilter(f)), skip, limit)
  }

  /** With no bound given, a search is the greenhouse lookup. */
  lemma UnboundedSearchIsLookup(store: History, scan: seq<Id>, gid: Id, skip: int, limit: int)
    requires IsScanOrder(store, scan)
    ensures Search(store, scan, gid, None, None, None, None, skip, limit) == GetByGreenhouseId(store, scan, gid, skip, limit)
  {
    GetAllCongruent(store, scan, InWindowFilter(gid, None, None, None, None), OfGreenhouse(gid), skip, limit);
  }
}

=== FILE: jwt_handler.dfy ===
/** Token minting, the per-request validation pipeline `get_current_user`
    and the role gate `get_current_admin`. A request is a pure function of
    the session store, the user store, the bearer token and the clock, and
    yields a principal or an HTTP error together with the new session store. */
module JwtHandler {
  import opened Wrappers
  import opened Common
  import opened Settings
  import opened Crypto
  import SessionRepository
  import SessionService
  import UserService

  /** The dictionary `get_current_user` returns. */
  datatype Principal = Principal(userId: Id, sessionId: string, isAdmin: bool, username: string, email: string)

  const CredentialsError := HttpError(Unauthorized, "Impossible de valider les credentials")
  const InactiveError := HttpError(Unauthorized, "Session inactive, veuillez vous reconnecter")
  const AdminOnlyError := HttpError(Forbidden, "Accès réservé aux administrateurs")

  /** The claims `create_access_token` signs: the caller's claims with `exp`
      set to `now` plus the token lifetime and `last_activity` set to `now`.
      The caller's claim set is a value and is not changed. */
  function Minted(data: Claims, now: Time, cfg: Config): Claims {
    data.(exp := Some(now + TokenLifetime(cfg)), lastActivity := Some(now))
  }

  /** `create_access_token`. */
  function CreateAccessToken(data: Claims, now: Time, cfg: Config): (t: Token)
    ensures forall at :: at <= now + TokenLifetime(cfg) ==> Decode(t, at) == Success(Minted(data, now, cfg))
    ensures forall at :: at > now + TokenLifetime(cfg) ==> Decode(t, at) == Failure(ExpiredSignature)
  {
    Encode(Minted(data, now, cfg))
  }

  /** A claim the source tests for truthiness: present and not empty. */
  predicate Truthy(s: Option<string>) {
    s.Some? && s.value != ""
  }

  /** The inactivity test: `(now - last_activity).total_seconds() / 60 >
      timeout`. The division is exact, so the test compares seconds with the
      timeout scaled to seconds. */
  predicate TimedOut(lastActivity: Time, now: Time, cfg: Config) {
    now - lastActivity > InactivityTimeout(cfg)
  }

  /** The same test written with the source's division, on exact reals. */
  lemma TimedOutIsMinutesComparison(lastActivity: Time, now: Time, cfg: Config)
    ensures TimedOut(lastActivity, now, cfg) <==> ((now - lastActivity) as real) / 60.0 > cfg.sessionInactivityTimeoutMinutes as real
  {
  }

  /** `get_current_user`, step by step:
      1. decode the token (signature and `exp`);
      2. require the `sub`, `session_id` and `last_activity` claims;
      3. resolve the active session and check that it belongs to `sub`;
      4. apply the inactivity timeout to the `last_activity` CLAIM,
         invalidating the session when it has passed;
      5. resolve the user;
      6. touch the session (the result is not checked).
      Every failure but the timeout is the same credentials error. */
  function GetCurrentUser(
    sessions: SessionRepository.Store, users: UserService.Users, token: Token, now: Time, cfg: Config)
    : (r: (Result<Principal, HttpError>, SessionRepository.Store))
    ensures r.0.Failure? ==> r.0.error == CredentialsError || r.0.error == InactiveError
    ensures SessionRepository.Monotone(sessions, r.1)
    ensures r.1.Keys == sessions.Keys
  {
    match Decode(token, now)
    case Failure(_) => (Failure(CredentialsError), sessions)
    case Success(claims) =>
      if !(Truthy(claims.sub) && Truthy(claims.sessionId) && claims.lastActivity.Some?) then
        (Failure(CredentialsError), sessions)
      else
        var userId, sid, lastActivity := claims.sub.value, claims.sessionId.value, claims.lastActivity.value;
        match SessionService.GetBySessionId(sessions, sid, now)
        case None => (Failure(CredentialsError), sessions)
        case Some(session) =>
          if session.userId != userId || !session.isActive then (Failure(CredentialsError), sessions)
          else if TimedOut(lastActivity, now, cfg) then
            (Failure(InactiveError), SessionService.InvalidateSession(sessions, sid).0)
          else
            match UserService.GetById(users, userId)
            case None => (Failure(CredentialsError), sessions)
            case Some(user) =>
              var touched := SessionService.UpdateLastActivity(sessions, sid, now).0;
              (Success(Principal(userId, sid, user.data.isAdmin, user.data.username, user.data.email)), touched)
  }

  // ---------------------------------------------------------------------
  // The pipeline's outcome, stated declaratively
  // ---------------------------------------------------------------------

  /** The token decodes at `now` and carries the three required claims. */
  predicate WellFormedAt(token: Token, now: Time) {
    && Decode(token, now).Success?
    && Truthy(token.claims.sub) && Truthy(token.claims.sessionId) && token.claims.lastActivity.Some?
  }

  /** The token's session is active in `sessions` and belongs to its subject. */
  predicate SessionMatches(sessions: SessionRepository.Store, token: Token)
    requires token.Signed?
    requires token.claims.sub.Some? && token.claims.sessionId.Some?
  {
    var sid := token.claims.sessionId.value;
    sid in sessions && sessions[sid].isActive && sessions[sid].userId == token.claims.sub.value
  }

  /** Exactly when the pipeline yields a principal, and what it contains. */
  lemma {:induction false} SucceedsIff(
    sessions: SessionRepository.Store, users: UserService.Users, token: Token, now: Time, cfg: Config)
    ensures var r := GetCurrentUser(sessions, users, token, now, cfg);
      r.0.Success? <==>
        && WellFormedAt(token, now)
        && SessionMatches(sessions, token)
        && !TimedOut(token.claims.lastActivity.value, now, cfg)
        && token.claims.sub.value in users
    ensures var r := GetCurrentUser(sessions, users, token, now, cfg);
      r.0.Success? ==>
        var p := r.0.value;
        var user := users[p.userId].data;
        && p.userId == token.claims.sub.value
        && p.sessionId == token.claims.sessionId.value
        && p.isAdmin == user.isAdmin && p.username == user.username && p.email == user.email
        && r.1 == SessionRepository.UpdateLastActivity(sessions, p.sessionId, now).0
        && r.1[p.sessionId].lastActivity == Some(now)
  {
  }

  /** Nothing is read from or written to the store when the token does not
      decode or lacks a required claim. */
  lemma RejectedBeforeLookup(
    sessions: SessionRepository.Store, users: UserService.Users, token: Token, now: Time, cfg: Config)
    requires !WellFormedAt(token, now)
    ensures GetCurrentUser(sessions, users, token, now, cfg) == (Failure(CredentialsError), sessions)
  {
  }

  /** The timeout path: exactly when the session matches and the claimed
      activity is too old, the session is closed and the request refused. */
  lemma {:induction false} TimeoutClosesSession(
    sessions: SessionRepository.Store, users: UserService.Users, token: Token, now: Time, cfg: Config)
    ensures var r := GetCurrentUser(sessions, users, token, now, cfg);
      r.0 == Failure(InactiveError) <==>
        WellFormedAt(token, now) && SessionMatches(sessions, token)
        && TimedOut(token.claims.lastActivity.value, now, cfg)
    ensures var r := GetCurrentUser(sessions, users, token, now, cfg);
      r.0 == Failure(InactiveError) ==>
        var sid := token.claims.sessionId.value;
        sid in r.1 && !r.1[sid].isActive
        && r.1 == SessionRepository.InvalidateSession(sessions, sid).0
  {
  }

  /** An inactive session is refused by the session check, before the
      timeout check: no second invalidation happens and nothing changes. */
  lemma InactiveSessionRejected(
    sessions: SessionRepository.Store, users: UserService.Users, token: Token, now: Time, cfg: Config)
    requires token.Signed? && token.claims.sessionId.Some?
    requires token.claims.sessionId.value in sessions && !sessions[token.claims.sessionId.value].isActive
    ensures GetCurrentUser(sessions, users, token, now, cfg) == (Failure(CredentialsError), sessions)
  {
  }

  /** The admin flag of the principal comes from the user record: tokens
      that differ only in their `is_admin` claim are treated identically. */
  lemma AdminClaimIgnored(
    sessions: SessionRepository.Store, users: UserService.Users, claims: Claims, a: Option<bool>, b: Option<bool>,
    now: Time, cfg: Config)
    ensures GetCurrentUser(sessions, users, Signed(claims.(isAdmin := a)), now, cfg)
         == GetCurrentUser(sessions, users, Signed(claims.(isAdmin := b)), now, cfg)
  {
  }

  /** The timeout never consults the session record's `last_activity`: two
      stores that differ only in those fields give the same verdict. */
  lemma {:induction false} TimeoutIgnoresStoredActivity(
    s1: SessionRepository.Store, s2: SessionRepository.Store, users: UserService.Users, token: Token, now: Time, cfg: Config)
    requires s1.Keys == s2.Keys
    requires forall sid :: sid in s1 ==> s1[sid].(lastActivity := None) == s2[sid].(lastActivity := None)
    ensures GetCurrentUser(s1, users, token, now, cfg).0 == GetCurrentUser(s2, users, token, now, cfg).0
  {
    if WellFormedAt(token, now) {
      var sid := token.claims.sessionId.value;
      if sid in s1 {
        assert s1[sid].(lastActivity := None) == s2[sid].(lastActivity := None);
        assert s1[sid].isActive == s2[sid].isActive && s1[sid].userId == s2[sid].userId;
      }
    }
  }

  /** So the timeout measures time since the token was minted: a token
      minted at `issuedAt` is refused once more than the timeout has passed
      since then, however recently its session was touched. */
  lemma TimeoutMeasuresSinceLogin(
    sessions: SessionRepository.Store, users: UserService.Users, data: Claims, issuedAt: Time, now: Time, cfg: Config)
    requires now - issuedAt > InactivityTimeout(cfg)
    ensures GetCurrentUser(sessions, users, CreateAccessToken(data, issuedAt, cfg), now, cfg).0.Failure?
  {
    SucceedsIff(sessions, users, CreateAccessToken(data, issuedAt, cfg), now, cfg);
  }

  /** With the shipped configuration (tokens live 30 minutes, the timeout is
      60 minutes) a token minted by `create_access_token` expires before its
      timeout can fire, so the timeout branch never invalidates a session. */
  lemma {:induction false} DefaultTimeoutUnreachable(
    sessions: SessionRepository.Store, users: UserService.Users, data: Claims, issuedAt: Time, now: Time)
    ensures GetCurrentUser(sessions, users, CreateAccessToken(data, issuedAt, Default), now, Default).0 != Failure(InactiveError)
  {
    var token := CreateAccessToken(data, issuedAt, Default);
    TimeoutClosesSession(sessions, users, token, now, Default);
    if WellFormedAt(token, now) {
      assert token.claims == Minted(data, issuedAt, Default);
      assert now <= issuedAt + TokenLifetime(Default);
    }
  }

  /** Once a session is inactive no request on it ever succeeds again, and
      it stays inactive whatever requests follow: every request in the
      sequence is refused with the credentials error, and none of them
      changes the store. */
  lemma {:induction false} InactiveStaysRejected(
    sessions: SessionRepository.Store, users: UserService.Users, sid: string, tokens: seq<Token>, times: seq<Time>, cfg: Config)
    requires |tokens| == |times|
    requires sid in sessions && !sessions[sid].isActive
    requires forall i :: 0 <= i < |tokens| ==> tokens[i].Signed? && tokens[i].claims.sessionId == Some(sid)
    ensures var final := Replay(sessions, users, tokens, times, cfg);
      sid in final && !final[sid].isActive
    ensures Replay(sessions, users, tokens, times, cfg) == sessions
    ensures forall i :: 0 <= i < |tokens| ==>
      GetCurrentUser(Replay(sessions, users, tokens[..i], times[..i], cfg), users, tokens[i], times[i], cfg).0
        == Failure(CredentialsError)
  {
    RejectedReplayIsIdentity(sessions, users, sid, tokens, times, cfg);
    forall i | 0 <= i < |tokens|
      ensures GetCurrentUser(Replay(sessions, users, tokens[..i], times[..i], cfg), users, tokens[i], times[i], cfg).0
        == Failure(CredentialsError)
    {
      RejectedReplayIsIdentity(sessions, users, sid, tokens[..i], times[..i], cfg);
      InactiveSessionRejected(sessions, users, tokens[i], times[i], cfg);
    }
  }

  /** Requests on an inactive session leave the store as it was. */
  lemma {:induction false} RejectedReplayIsIdentity(
    sessions: SessionRepository.Store, users: UserService.Users, sid: string, tokens: seq<Token>, times: seq<Time>, cfg: Config)
    requires |tokens| == |times|
    requires sid in sessions && !sessions[sid].isActive
    requires forall i :: 0 <= i < |tokens| ==> tokens[i].Signed? && tokens[i].claims.sessionId == Some(sid)
    ensures Replay(sessions, users, tokens, times, cfg) == sessions
    decreases |tokens|
  {
    if |tokens| > 0 {
      InactiveSessionRejected(sessions, users, tokens[0], times[0], cfg);
      RejectedReplayIsIdentity(sessions, users, sid, tokens[1..], times[1..], cfg);
    }
  }

  /** The session store after a sequence of requests. */
  function Replay(
    sessions: SessionRepository.Store, users: UserService.Users, tokens: seq<Token>, times: seq<Time>, cfg: Config)
    : (r: SessionRepository.Store)
    requires |tokens| == |times|
    ensures SessionRepository.Monotone(sessions, r)
    decreases |tokens|
  {
    if |tokens| == 0 then sessions
    else
      var next := GetCurrentUser(sessions, users, tokens[0], times[0], cfg).1;
      var r := Replay(next, users, tokens[1..], times[1..], cfg);
      SessionRepository.MonotoneTransitive(sessions, next, r);
      r
  }

  /** `get_current_admin`: 403 for a principal without the admin flag, the
      principal unchanged otherwise. */
  function GetCurrentAdmin(p: Principal): (r: Result<Principal, HttpError>)
    ensures r.Failure? <==> !p.isAdmin
    ensures r.Failure? ==> r.error == AdminOnlyError
    ensures r.Success? ==> r.value == p
  {
    if !p.isAdmin then Failure(AdminOnlyError) else Success(p)
  }
}

=== FILE: sequences.dfy ===
/** Order-preserving selection over sequences: the model of Python's
    `[x for x in xs if p(x)]` and of `sum(1 for x in xs if p(x))`. */
module Sequences {

  /** Number of elements of `xs` that satisfy `p`. */
  function Count<X>(xs: seq<X>, p: X -> bool): (n: nat)
    ensures n <= |xs|
    decreases |xs|
  {
    if |xs| == 0 then 0
    else Count(xs[..|xs| - 1], p) + (if p(xs[|xs| - 1]) then 1 else 0)
  }

  /** `a` can be obtained from `b` by deleting elements, keeping the order. */
  predicate IsSubsequence<X(==)>(a: seq<X>, b: seq<X>)
    decreases |b|
  {
    if |b| == 0 then |a| == 0
    else
      IsSubsequence(a, b[..|b| - 1])
      || (|a| > 0 && a[|a| - 1] == b[|b| - 1] && IsSubsequence(a[..|a| - 1], b[..|b| - 1]))
  }

  /** Every sequence is a subsequence of itself. */
  lemma {:induction false} SubsequenceReflexive<X>(xs: seq<X>)
    ensures IsSubsequence(xs, xs)
    decreases |xs|
  {
    if |xs| > 0 {
      SubsequenceReflexive(xs[..|xs| - 1]);
    }
  }

  /** The elements of `xs` that satisfy `p`, in their original order.
      Being a subsequence whose every element satisfies `p` and whose length
      is `Count(xs, p)` determines the result completely. */
  function Keep<X(==)>(xs: seq<X>, p: X -> bool): (r: seq<X>)
    ensures IsSubsequence(r, xs)
    ensures forall i :: 0 <= i < |r| ==> p(r[i]) && r[i] in xs
    ensures forall i :: 0 <= i < |xs| && p(xs[i]) ==> xs[i] in r
    ensures |r| == Count(xs, p)
    decreases |xs|
  {
    if |xs| == 0 then []
    else
      var init := Keep(xs[..|xs| - 1], p);
      var last := xs[|xs| - 1];
      if p(last) then
        assert (init + [last])[..|init|] == init;
        init + [last]
      else init
  }

  /** Every element is selected exactly when it satisfies `p`: selecting with
      a predicate that holds everywhere returns the sequence unchanged. */
  lemma {:induction false} KeepAll<X>(xs: seq<X>, p: X -> bool)
    requires forall i :: 0 <= i < |xs| ==> p(xs[i])
    ensures Keep(xs, p) == xs
    decreases |xs|
  {
    if |xs| > 0 {
      KeepAll(xs[..|xs| - 1], p);
      assert xs[..|xs| - 1] + [xs[|xs| - 1]] == xs;
    }
  }

  /** Selection depends only on the verdicts on the elements present. */
  lemma {:induction false} KeepCongruent<X>(xs: seq<X>, p: X -> bool, q: X -> bool)
    requires forall i :: 0 <= i < |xs| ==> p(xs[i]) == q(xs[i])
    ensures Keep(xs, p) == Keep(xs, q)
    decreases |xs|
  {
    if |xs| > 0 {
      KeepCongruent(xs[..|xs| - 1], p, q);
    }
  }

  /** Splitting the selected elements by a second predicate partitions them:
      each is counted in exactly one of the two buckets. */
  lemma {:induction false} CountSplit<X>(xs: seq<X>, p: X -> bool, q: X -> bool, pq: X -> bool, pnq: X -> bool)
    requires forall x :: pq(x) == (p(x) && q(x))
    requires forall x :: pnq(x) == (p(x) && !q(x))
    ensures Count(xs, pq) + Count(xs, pnq) == Count(xs, p)
    decreases |xs|
  {
    if |xs| > 0 {
      CountSplit(xs[..|xs| - 1], p, q, pq, pnq);
    }
  }

  /** Predicates that agree on every element count the same. */
  lemma {:induction false} CountCongruent<X>(xs: seq<X>, p: X -> bool, q: X -> bool)
    requires forall i :: 0 <= i < |xs| ==> p(xs[i]) == q(xs[i])
    ensures Count(xs, p) == Count(xs, q)
    decreases |xs|
  {
    if |xs| > 0 {
      CountCongruent(xs[..|xs| - 1], p, q);
    }
  }

  /** A predicate that holds everywhere counts every element. */
  lemma CountAll<X>(xs: seq<X>, p: X -> bool)
    requires forall i :: 0 <= i < |xs| ==> p(xs[i])
    ensures Count(xs, p) == |xs|
  {
    KeepAll(xs, p);
  }

  /** Counting over one more element of a prefix. */
  lemma CountPrefix<X>(xs: seq<X>, p: X -> bool, i: nat)
    requires i < |xs|
    ensures Count(xs[..i + 1], p) == Count(xs[..i], p) + (if p(xs[i]) then 1 else 0)
  {
    assert xs[..i + 1][..i] == xs[..i];
  }
}

=== FILE: services.dfy ===
/** What a service call can raise, and how a controller's catch-all turns a
    non-HTTP exception into a 500 response. */
module Services {
  import opened Common
  import BaseRepository

  /** An `HTTPException`, a `ValueError` with its message, or an error
      raised by the store. */
  datatype ServiceError =
    | Http(http: HttpError)
    | ValueError(message: string)
    | Store(store: BaseRepository.StoreError)
    | Attribute(message: string)   // an attribute read on `None`

  /** `str(e)` for an exception the model does not spell out: the driver's
      own wording is not part of the model. */
  function StoreMessage(e: BaseRepository.StoreError): string {
    match e
    case DuplicateKey => "duplicate key error"
    case NegativeSkip => "skip must be >= 0"
  }

  /** The controllers' `except HTTPException: raise` / `except Exception as e:
      raise HTTPException(500, str(e))`. */
  function ToHttp(e: ServiceError): (r: HttpError)
    ensures e.Http? ==> r == e.http
    ensures !e.Http? ==> r.status == InternalError
    ensures e.ValueError? ==> r.detail == e.message
    ensures e.Attribute? ==> r.detail == e.message
    ensures e.Store? ==> r.detail == StoreMessage(e.store)
  {
    match e
    case Http(h) => h
    case ValueError(m) => HttpError(InternalError, m)
    case Store(s) => HttpError(InternalError, StoreMessage(s))
    case Attribute(m) => HttpError(InternalError, m)
  }
  /** The decimal digits of `n`, most significant first. */
  function NatToString(n: nat): (s: string)
    ensures |s| >= 1
    ensures forall i :: 0 <= i < |s| ==> '0' <= s[i] <= '9'
    decreases n
  {
    var d := [('0' as int + n % 10) as char];
    if n < 10 then d else NatToString(n / 10) + d
  }

  /** The value of a string of decimal digits. */
  function ParseNat(s: string): nat
    requires forall i :: 0 <= i < |s| ==> '0' <= s[i] <= '9'
    decreases |s|
  {
    if |s| == 0 then 0 else ParseNat(s[..|s| - 1]) * 10 + (s[|s| - 1] as int - '0' as int)
  }

  /** Rendering a status code loses nothing: its digits read back as the code. */
  lemma {:induction false} ParseNatToString(n: nat)
    ensures ParseNat(NatToString(n)) == n
    decreases n
  {
    var s := NatToString(n);
    if n >= 10 {
      ParseNatToString(n / 10);
      assert s[..|s| - 1] == NatToString(n / 10);
    }
  }

  /** A handler with only `except Exception as e: raise HTTPException(500,
      str(e))`: an `HTTPException` is caught too, and `str` of it is
      `"<status>: <detail>"`. */
  function CatchAll(e: ServiceError): (r: HttpError)
    ensures r.status == InternalError
    ensures !e.Http? ==> r == ToHttp(e)
    ensures e.Http? && 0 <= e.http.status ==> r.detail == NatToString(e.http.status) + ": " + e.http.detail
  {
    match e
    case Http(h) => HttpError(InternalError, (if h.status < 0 then "-" + NatToString(-h.status) else NatToString(h.status)) + ": " + h.detail)
    case _ => ToHttp(e)
  }
}

=== FILE: session_repository.dfy ===
/** The `sessions` collection. A unique index on `session_id` makes it a
    key, so the collection is modelled as a map from session id to the rest
    of the stored document. */
module SessionRepository {
  import opened Wrappers
  import opened Common
  import BaseRepository

  /** A stored session document. `last_activity` is absent from a freshly
      inserted document (the insert writes only the creation payload and the
      two timestamps) and present once the session has been touched. */
  datatype SessionRecord = SessionRecord(
    id: Id,
    userId: Id,
    isActive: bool,
    lastActivity: Option<Time>,
    createdAt: Time,
    updatedAt: Time)

  type Store = map<string, SessionRecord>

  /** A session document as returned by the repository. */
  datatype SessionDoc = SessionDoc(sessionId: string, record: SessionRecord)

  /** No two sessions share a document `_id`. */
  ghost predicate IdsUnique(store: Store) {
    forall s1, s2 :: s1 in store && s2 in store && store[s1].id == store[s2].id ==> s1 == s2
  }

  /** `s` and `s'` hold the same sessions under every session id but `sid`. */
  ghost predicate AgreeExcept(s: Store, s': Store, sid: string) {
    && (forall k :: k != sid ==> (k in s <==> k in s'))
    && (forall k :: k in s && k != sid ==> s'[k] == s[k])
  }

  /** The store only moves forward: no session disappears and no inactive
      session becomes active again. */
  ghost predicate Monotone(s: Store, s': Store) {
    forall sid :: sid in s ==> sid in s' && (!s[sid].isActive ==> !s'[sid].isActive)
  }

  lemma MonotoneTransitive(s1: Store, s2: Store, s3: Store)
    requires Monotone(s1, s2) && Monotone(s2, s3)
    ensures Monotone(s1, s3)
  {
  }

  /** Some stored session already uses `_id` `oid`. */
  predicate IdInUse(store: Store, oid: Id) {
    exists sid :: sid in store && store[sid].id == oid
  }

  /** `create` inherited from the base repository, on this collection: the
      insert fails on a duplicate `_id` or, through the unique index, on a
      duplicate `session_id`. */
  function Create(store: Store, oid: Id, sessionId: string, userId: Id, isActive: bool, now: Time)
    : (r: Result<(Store, SessionDoc), BaseRepository.StoreError>)
    ensures r.Failure? <==> sessionId in store || IdInUse(store, oid)
    ensures r.Failure? ==> r.error == BaseRepository.DuplicateKey
    ensures r.Success? ==>
      && r.value.0.Keys == store.Keys + {sessionId}
      && AgreeExcept(store, r.value.0, sessionId)
      && r.value.1 == SessionDoc(sessionId, r.value.0[sessionId])
      && r.value.1.record == SessionRecord(oid, userId, isActive, None, now, now)
    ensures r.Success? && IdsUnique(store) ==> IdsUnique(r.value.0)
    ensures r.Success? ==> Monotone(store, r.value.0)
  {
    if sessionId in store || IdInUse(store, oid) then Failure(BaseRepository.DuplicateKey)
    else
      var rec := SessionRecord(oid, userId, isActive, None, now, now);
      Success((store[sessionId := rec], SessionDoc(sessionId, rec)))
  }

  /** `get_by_session_id`: the session, but only while it is active. */
  function GetBySessionId(store: Store, sid: string): (r: Option<SessionDoc>)
    ensures r.Some? <==> sid in store && store[sid].isActive
    ensures r.Some? ==> r.value == SessionDoc(sid, store[sid])
  {
    if sid in store && store[sid].isActive then Some(SessionDoc(sid, store[sid])) else None
  }

  /** To a caller an inactive session is indistinguishable from a missing one. */
  lemma InactiveLooksAbsent(store: Store, sid: string)
    requires sid in store && !store[sid].isActive
    ensures GetBySessionId(store, sid) == GetBySessionId(store - {sid}, sid)
  {
  }

  /** `update_last_activity`: one atomic conditional update that sets
      `last_activity` to `now` on an active session and returns the document
      after the update; an inactive or missing session is left alone. */
  function UpdateLastActivity(store: Store, sid: string, now: Time): (r: (Store, Option<SessionDoc>))
    ensures r.1.Some? <==> sid in store && store[sid].isActive
    ensures r.1.None? ==> r.0 == store
    ensures r.1.Some? ==>
      && r.0.Keys == store.Keys
      && r.0[sid].lastActivity == Some(now)
      && r.0[sid].(lastActivity := store[sid].lastActivity) == store[sid]
      && GetBySessionId(r.0, sid) == r.1
    ensures AgreeExcept(store, r.0, sid)
    ensures Monotone(store, r.0)
    ensures IdsUnique(store) ==> IdsUnique(r.0)
  {
    if sid in store && store[sid].isActive then
      var rec := store[sid].(lastActivity := Some(now));
      (store[sid := rec], Some(SessionDoc(sid, rec)))
    else (store, None)
  }

  /** `invalidate_session`: sets `is_active` to false whatever the current
      state; reports true only when the document actually changed. */
  function InvalidateSession(store: Store, sid: string): (r: (Store, bool))
    ensures r.1 <==> sid in store && store[sid].isActive
    ensures r.0.Keys == store.Keys
    ensures sid in store ==> !r.0[sid].isActive && r.0[sid].(isActive := store[sid].isActive) == store[sid]
    ensures !r.1 ==> r.0 == store
    ensures AgreeExcept(store, r.0, sid)
    ensures Monotone(store, r.0)
    ensures IdsUnique(store) ==> IdsUnique(r.0)
  {
    if sid !in store then (store, false)
    else
      var rec := store[sid];
      (store[sid := rec.(isActive := false)], rec.isActive)
  }

  /** Invalidation is idempotent: a second call changes nothing and reports
      false. */
  lemma {:induction false} InvalidateTwice(store: Store, sid: string)
    ensures var s1 := InvalidateSession(store, sid).0;
      InvalidateSession(s1, sid) == (s1, false)
  {
    var s1 := InvalidateSession(store, sid).0;
    if sid in store {
      assert s1[sid := s1[sid].(isActive := false)] == s1;
    }
  }

  /** After invalidation the session is gone for every lookup and touch. */
  lemma InvalidatedIsUnreachable(store: Store, sid: string, now: Time)
    ensures var s1 := InvalidateSession(store, sid).0;
      GetBySessionId(s1, sid).None? && UpdateLastActivity(s1, sid, now) == (s1, None)
  {
  }
}

=== FILE: session_service.dfy ===
/** `SessionService`: the session operations the authentication layer calls,
    converting repository documents into `SessionModel` values. */
module SessionService {
  import opened Wrappers
  import opened Common
  import BaseRepository
  import opened SessionRepository

  /** `SessionModel`. A document without `last_activity` gets the field's
      default, the clock reading at the moment the model is built. */
  datatype SessionModel = SessionModel(
    id: Id,
    userId: Id,
    sessionId: string,
    lastActivity: Time,
    createdAt: Time,
    isActive: bool)

  /** `SessionCreate`: the payload handed to `create`. */
  datatype SessionCreate = SessionCreate(userId: Id, sessionId: string, isActive: bool)

  /** `SessionUpdate`: `is_active` is the only updatable field; None means
      the field was not set by the caller. */
  datatype SessionUpdate = SessionUpdate(isActive: Option<bool>)

  function ToModel(doc: SessionDoc, now: Time): (m: SessionModel)
    ensures m.sessionId == doc.sessionId && m.userId == doc.record.userId && m.isActive == doc.record.isActive
    ensures m.id == doc.record.id && m.createdAt == doc.record.createdAt
    ensures m.lastActivity == (if doc.record.lastActivity.Some? then doc.record.lastActivity.value else now)
  {
    var r := doc.record;
    SessionModel(r.id, r.userId, doc.sessionId,
                 if r.lastActivity.Some? then r.lastActivity.value else now,
                 r.createdAt, r.isActive)
  }

  /** `create`: discards the caller's `session_id` and stores the session
      under `freshId` (a `uuid4`, generated outside the model) and document id
      `oid`; user and activity flag are stored as given. */
  function Create(store: Store, data: SessionCreate, freshId: string, oid: Id, now: Time)
    : (r: Result<(Store, SessionModel), BaseRepository.StoreError>)
    ensures r.Failure? <==> freshId in store || IdInUse(store, oid)
    ensures r.Success? ==>
      && r.value.1.sessionId == freshId
      && r.value.1.userId == data.userId
      && r.value.1.isActive == data.isActive
      && r.value.1.createdAt == now
      && r.value.0.Keys == store.Keys + {freshId}
      && SessionRepository.AgreeExcept(store, r.value.0, freshId)
      && (GetBySessionId(r.value.0, freshId, now).Some? <==> data.isActive)
  {
    match SessionRepository.Create(store, oid, freshId, data.userId, data.isActive, now)
    case Failure(e) => Failure(e)
    case Success((store', doc)) => Success((store', ToModel(doc, now)))
  }

  /** The caller's `session_id` never reaches the store. */
  lemma CreateIgnoresCallerSessionId(store: Store, a: SessionCreate, b: SessionCreate, freshId: string, oid: Id, now: Time)
    requires a.userId == b.userId && a.isActive == b.isActive
    ensures Create(store, a, freshId, oid, now) == Create(store, b, freshId, oid, now)
  {
  }

  /** `get_by_session_id`: a missing repository result becomes None. */
  function GetBySessionId(store: Store, sid: string, now: Time): (r: Option<SessionModel>)
    ensures r.Some? <==> sid in store && store[sid].isActive
    ensures r.Some? ==> r.value.sessionId == sid && r.value.userId == store[sid].userId && r.value.isActive
  {
    match SessionRepository.GetBySessionId(store, sid)
    case None => None
    case Some(doc) => Some(ToModel(doc, now))
  }

  /** `update_last_activity`: a missing repository result becomes None. */
  function UpdateLastActivity(store: Store, sid: string, now: Time): (r: (Store, Option<SessionModel>))
    ensures r.1.Some? <==> sid in store && store[sid].isActive
    ensures r.1.Some? ==> r.1.value.lastActivity == now && r.1.value.sessionId == sid
    ensures r.0 == SessionRepository.UpdateLastActivity(store, sid, now).0
  {
    var (store', doc) := SessionRepository.UpdateLastActivity(store, sid, now);
    (store', if doc.Some? then Some(ToModel(doc.value, now)) else None)
  }

  /** `invalidate_session`: the repository's flag, unchanged. */
  function InvalidateSession(store: Store, sid: string): (r: (Store, bool))
    ensures r.1 <==> sid in store && store[sid].isActive
    ensures r == SessionRepository.InvalidateSession(store, sid)
  {
    SessionRepository.InvalidateSession(store, sid)
  }

  /** The session id stored under document id `oid`, if any. */
  function FindById(store: Store, oid: Id): (r: Option<string>)
    requires IdsUnique(store)
    ensures r.Some? <==> IdInUse(store, oid)
    ensures r.Some? ==> r.value in store && store[r.value].id == oid
  {
    if IdInUse(store, oid) then
      var sid :| sid in store && store[sid].id == oid;
      Some(sid)
    else None
  }

  /** `get_by_id`: look a session up by its document id, active or not. */
  function GetById(store: Store, oid: Id, now: Time): (r: Option<SessionModel>)
    requires IdsUnique(store)
    ensures r.Some? <==> IdInUse(store, oid)
    ensures r.Some? ==> r.value.id == oid
  {
    match FindById(store, oid)
    case None => None
    case Some(sid) => Some(ToModel(SessionDoc(sid, store[sid]), now))
  }

  /** `update`: an update that sets no field writes nothing and returns the
      current session; otherwise the base repository's update by `_id`. */
  function Update(store: Store, oid: Id, data: SessionUpdate, now: Time): (r: (Store, Option<SessionModel>))
    requires IdsUnique(store)
    ensures data.isActive.None? ==> r == (store, GetById(store, oid, now))
    ensures r.1.Some? ==> IdInUse(store, oid) && r.1.value.id == oid
    ensures data.isActive.Some? && r.1.Some? ==> r.1.value.isActive == data.isActive.value
    ensures r.1.None? ==> r.0 == store
    ensures data.isActive.Some? ==> forall sid :: sid in store && store[sid].id == oid ==>
      var rec' := store[sid].(isActive := data.isActive.value, updatedAt := now);
      && (r.1.Some? <==> rec' != store[sid])
      && (r.1.Some? ==> r.0 == store[sid := rec'])
    ensures IdsUnique(r.0)
  {
    match data.isActive
    case None => (store, GetById(store, oid, now))
    case Some(active) =>
      match FindById(store, oid)
      case None => (store, None)
      case Some(sid) =>
        var rec := store[sid];
        var rec' := rec.(isActive := active, updatedAt := now);
        if rec' == rec then (store, None)
        else
          (store[sid := rec'], Some(ToModel(SessionDoc(sid, rec'), now)))
  }

  /** Unlike every repository operation, `update` can set `is_active` back to
      true: the no-reactivation invariant holds only because no caller uses it. */
  lemma UpdateCanReactivate()
    ensures var store := map["s" := SessionRecord("o", "u", false, None, 0, 0)];
      IdsUnique(store)
      && var (store', m) := Update(store, "o", SessionUpdate(Some(true)), 1);
      m.Some? && store'["s"].isActive && !Monotone(store, store')
  {
    var store := map["s" := SessionRecord("o", "u", false, None, 0, 0)];
    assert store["s"].id == "o";
    assert IdInUse(store, "o");
    assert FindById(store, "o") == Some("s");
  }
}

=== FILE: settings.dfy ===
/** The configuration values the authentication core reads. */
module Settings {

  /** The two durations, in minutes, that bound a token and a session. */
  datatype Config = Config(accessTokenExpireMinutes: int, sessionInactivityTimeoutMinutes: int)

  /** The values shipped as defaults: tokens expire after 30 minutes, sessions
      time out after 60 minutes of (claimed) inactivity. */
  const Default := Config(30, 60)

  /** Token lifetime in seconds. */
  function TokenLifetime(cfg: Config): int {
    60 * cfg.accessTokenExpireMinutes
  }

  /** Inactivity timeout in seconds. */
  function InactivityTimeout(cfg: Config): int {
    60 * cfg.sessionInactivityTimeoutMinutes
  }
}

=== FILE: user_service.dfy ===
/** `UserService`: user records, e-mail uniqueness and password hashing. */
module UserService {
  import opened Wrappers
  import opened Common
  import opened BaseRepository
  import opened Services
  import Crypto

  /** The stored fields of a user. The plaintext password has no field: only
      its digest is ever stored. `reset_token` is written only by `update`. */
  datatype UserData = UserData(
    username: string,
    email: string,
    hashedPassword: Crypto.Digest,
    isAdmin: bool,
    isActive: bool,
    resetToken: Option<string>)

  type Users = Collection<UserData>

  /** `UserModel`: a user document. */
  type UserModel = Doc<UserData>

  /** `UserCreate`. */
  datatype UserCreate = UserCreate(username: string, email: string, password: string, isAdmin: bool, isActive: bool)

  /** `UserUpdate`; None marks a field the caller did not set. */
  datatype UserUpdate = UserUpdate(
    username: Option<string>,
    email: Option<string>,
    password: Option<string>,
    isAdmin: Option<bool>,
    isActive: Option<bool>,
    resetToken: Option<string>)

  const EmailTaken := HttpError(BadRequest, "Cet email est déjà utilisé")
  const NothingToUpdate := "Aucune donnée à mettre à jour"

  /** The unique index on `email`: no two users share an address. */
  ghost predicate EmailsUnique(users: Users) {
    forall i, j :: i in users && j in users && users[i].data.email == users[j].data.email ==> i == j
  }

  predicate EmailInUse(users: Users, email: string) {
    exists id :: id in users && users[id].data.email == email
  }

  /** `get_by_id`. */
  function GetById(users: Users, id: Id): (r: Option<UserModel>)
    ensures r.Some? <==> id in users
    ensures r.Some? ==> r.value.id == id && r.value.data == users[id].data
  {
    BaseRepository.GetById(users, id)
  }

  /** `get_by_email`: the one user with that address, if any. */
  function GetByEmail(users: Users, email: string): (r: Option<UserModel>)
    requires EmailsUnique(users)
    ensures r.Some? <==> EmailInUse(users, email)
    ensures r.Some? ==> r.value.id in users && r.value == ToDoc(r.value.id, users[r.value.id])
    ensures r.Some? ==> r.value.data.email == email
  {
    if EmailInUse(users, email) then
      var id :| id in users && users[id].data.email == email;
      Some(ToDoc(id, users[id]))
    else None
  }

  /** `create`: rejects an address already in use with 400; otherwise stores
      the fields with `hashed_password` = the salted hash of the password in
      place of the password itself. */
  function Create(users: Users, data: UserCreate, salt: nat, newId: Id, now: Time)
    : (r: Result<(Users, UserModel), ServiceError>)
    requires EmailsUnique(users)
    ensures r == Failure(Http(EmailTaken)) <==> EmailInUse(users, data.email)
    ensures r.Failure? && !EmailInUse(users, data.email) ==> newId in users && r.error == Store(DuplicateKey)
    ensures r.Success? ==>
      && GetById(r.value.0, r.value.1.id) == Some(r.value.1)
      && r.value.1.id == newId
      && r.value.1.data.email == data.email
      && r.value.1.data.username == data.username
      && r.value.1.data.isAdmin == data.isAdmin
      && r.value.1.data.hashedPassword == Crypto.Hash(data.password, salt)
      && Crypto.Verify(data.password, r.value.1.data.hashedPassword) == Success(true)
      && r.value.0.Keys == users.Keys + {newId}
      && BaseRepository.AgreeExcept(users, r.value.0, newId)
      && EmailsUnique(r.value.0)
  {
    if EmailInUse(users, data.email) then Failure(Http(EmailTaken))
    else
      var fields := UserData(data.username, data.email, Crypto.Hash(data.password, salt),
                             data.isAdmin, data.isActive, None);
      match BaseRepository.Create(users, newId, fields, now)
      case Failure(e) => Failure(Store(e))
      case Success(res) =>
        assert forall id :: id in res.0 && id != newId ==> id in users && res.0[id] == users[id];
        Success(res)
  }

  /** The fields an update sets, with a supplied password already replaced by
      its hash. */
  function Apply(u: UserData, data: UserUpdate, salt: nat): UserData {
    u.(username := if data.username.Some? then data.username.value else u.username,
       email := if data.email.Some? then data.email.value else u.email,
       hashedPassword := if data.password.Some? then Crypto.Hash(data.password.value, salt) else u.hashedPassword,
       isAdmin := if data.isAdmin.Some? then data.isAdmin.value else u.isAdmin,
       isActive := if data.isActive.Some? then data.isActive.value else u.isActive,
       resetToken := if data.resetToken.Some? then data.resetToken else u.resetToken)
  }

  predicate NoFieldSet(data: UserUpdate) {
    data.username.None? && data.email.None? && data.password.None?
    && data.isAdmin.None? && data.isActive.None? && data.resetToken.None?
  }

  /** `update`: hashes a new password, refuses an address held by another
      user (400), refuses an update that sets nothing (`ValueError`, no
      write), and otherwise applies the update; None when the store reports
      no modified document. */
  function Update(users: Users, id: Id, data: UserUpdate, salt: nat, now: Time)
    : (r: Result<(Users, Option<UserModel>), ServiceError>)
    requires EmailsUnique(users)
    ensures r == Failure(Http(EmailTaken)) <==>
      data.email.Some? && exists other :: other in users && other != id && users[other].data.email == data.email.value
    ensures r == Failure(ValueError(NothingToUpdate)) <==> NoFieldSet(data)
    ensures r.Failure? ==> r == Failure(Http(EmailTaken)) || r == Failure(ValueError(NothingToUpdate))
    ensures r.Success? ==> EmailsUnique(r.value.0) && BaseRepository.AgreeExcept(users, r.value.0, id)
    ensures r.Success? && r.value.1.None? ==> r.value.0 == users
    ensures r.Success? ==> (r.value.1.Some? <==>
      id in users && (Apply(users[id].data, data, salt) != users[id].data || users[id].updatedAt != now))
    ensures r.Success? && r.value.1.Some? ==>
      && id in users
      && r.value.1.value.data == Apply(users[id].data, data, salt)
      && r.value.1.value.updatedAt == now
      && GetById(r.value.0, id) == r.value.1
      && (data.password.Some? ==> r.value.1.value.data.hashedPassword == Crypto.Hash(data.password.value, salt))
      && (data.password.None? ==> r.value.1.value.data.hashedPassword == users[id].data.hashedPassword)
  {
    var conflict := data.email.Some? &&
      var existing := GetByEmail(users, data.email.value);
      existing.Some? && existing.value.id != id;
    if conflict then Failure(Http(EmailTaken))
    else if NoFieldSet(data) then Failure(ValueError(NothingToUpdate))
    else
      var (users', doc) := BaseRepository.Update(users, id, u => Apply(u, data, salt), now);
      assert EmailsUnique(users') by {
        forall i, j | i in users' && j in users' && users'[i].data.email == users'[j].data.email
          ensures i == j
        {
          if i != id && j != id {
            assert users[i] == users'[i] && users[j] == users'[j];
          }
        }
      }
      Success((users', doc))
  }

  /** A user re-submitting their own address is not a conflict. */
  lemma OwnEmailAccepted(users: Users, id: Id, data: UserUpdate, salt: nat, now: Time)
    requires EmailsUnique(users)
    requires id in users && data.email == Some(users[id].data.email)
    ensures Update(users, id, data, salt, now).Success?
  {
  }
}

=== FILE: wrappers.dfy ===
/** Failure-compatible wrappers used throughout the model: `Option` for the
    source's `Optional[...]` returns and `Result` for raised exceptions. */
module Wrappers {

  datatype Option<+T> = None | Some(value: T)

  datatype Result<+R, +E> = Success(value: R) | Failure(error: E)
}
